=== FILE: README.md ===
# AI interview-prep backend: a Dafny model of its deterministic core

The backend is a Flask service. It reads a job posting from a URL, runs a chain of LLM agents
over it, and returns structured skills and interview-preparation material. It also counts usage
in Prometheus metrics and pushes them to a remote-write endpoint. This project models the parts
of that service that do not depend on the language model:

- **Page fetch** (`Fetch`, `Url`). `fetch_web_content` checks the URL with `urlparse`, then makes
  up to three `requests.get` attempts. Each attempt's outcome is one of: a response with a status
  code, a timeout, a redirect loop, or another request error. The network is a function from the
  attempt index to its outcome, so the model says exactly which attempts are made and which
  dictionary comes back. The `urlparse` steps that the guard depends on are modelled: leading
  control characters, removing tabs and newlines, the scheme, the `//` network location, and the
  unbalanced-bracket error the split raises.
- **Text clean-up** (`Text`, `Extract`). This is `re.sub(r'\s+', ' ', text).strip()` with Python's
  `str.isspace` set of whitespace. A text longer than 12000 characters becomes its first 6000
  characters, then `" ... "`, then its last 6000 characters.
- **Records** (`Json`, `Records`). These are the pydantic shapes `RequiredSkills`,
  `JobSkillsOutput`, `CompanyResearchOutput`, `InterviewQuestion`, `PreparationTip` and
  `InterviewPrepOutput`. Each has its `model_dump` and its validation back from a JSON value.
  Validation returns the record or the first error.
- **Result aggregation** (`Aggregate`). `build_interview_prep_output` is a left fold over the
  run's items. Each item becomes an effect: keep, set one section, or raise. Which section is set
  depends on the first of `company_overview`, `technical_questions`, `behavioral_questions`,
  `preparation_tips` present in the decoded object. `json.loads` is an oracle.
- **The analyze route** (`Routes`). `analyze_job` answers 400 when `url` is missing or falsy.
  Otherwise it turns the orchestrator's final output into the reply. For a text output, that
  means JSON sniffing: the span from the first `{` to the last `}`.
- **Remote write** (`RemoteWrite`, `Utf8`, `Base64`). This covers the `RemoteWriteManager`
  configuration, `start`/`stop` as a running/stopped state, and the Basic authentication header.
  That header is written out in full: UTF-8 as in section 3 of RFC 3629, then base 64 as in
  section 4 of RFC 4648. It also covers the conversion of samples into remote-write entries with
  `job`/`instance` label defaults.
- **Metrics** (`Metrics`). The model-pricing lookup, the integer counters that
  `track_openai_usage` raises, and the request counter of `MetricsMiddleware`. A counter is a map
  from label tuples to naturals.

Each operation is paired with something independent to check it against:

- Decoding is proved to invert encoding: records, UTF-8 and base 64.
- The fetch loop is compared with a reference, "the verdict of the first decisive attempt".
- The aggregation fold is compared with a reference, "each section from the last item of its
  kind".
- The clean-up is proved equal to `" ".join(s.split())`.
- The brace sniffing is characterised as the outermost span.

Two behaviours of the code are worth stating on their own:

- **Truncation length.** A normalised text over 12000 characters becomes 6000 + 5 + 6000 = 12005
  characters (backend/app.py:219-221). See `Extract.TruncationExceedsBoundAndMayJoinSpaces`.
- **Instance name.** An empty instance name also falls back to the host name, because the code
  uses `instance_name or socket.gethostname()` (backend/prometheus_remote.py:33).

## Model

| member | source | states |
|---|---|---|
| Fetch.FetchWebContent | backend/app.py:44-59 | no request is made exactly when the URL guard rejects the URL; otherwise at most three requests are made |
| Fetch.CheckUrl | backend/app.py:44-59 | the `urlparse` guard: a split error or an empty scheme or network location is an error result, anything else lets the loop run (meaning proved by `Fetch.MissingSchemeOrHostRejected` and `Fetch.FetchWebContent`) |
| Fetch.Attempt | backend/app.py:71-74 | the loop started at attempt k makes at least one more request when k is below three, and never more than three in total |
| Fetch.StopIndex | backend/app.py:74-145 | the index of the first attempt that ends the loop: a 200, a redirect loop, or the third attempt; every earlier attempt is retried |
| Fetch.AttemptStopsAtFirstDecisive | backend/app.py:74-145 | the loop returns the verdict of the first decisive attempt, after exactly that many requests |
| Fetch.FetchRunsLoop | backend/app.py:44-145 | a URL that passes the guard gets the verdict of the first decisive attempt |
| Fetch.GuardedUrlMakesNoRequest | backend/app.py:44-59 | a rejected URL fails with the guard's error and no request; an accepted one makes one to three requests |
| Fetch.MissingSchemeOrHostRejected | backend/app.py:44-52 | a URL whose parsed scheme or network location is empty gets the "Invalid URL format" error with no request |
| Fetch.RejectsBareWord | backend/app.py:44-52 | "not-a-url" is rejected with the "Invalid URL format" error and no request |
| Fetch.AcceptsHttpsUrl | backend/app.py:44-46 | a full https URL passes the guard |
| Fetch.FirstOkWins | backend/app.py:79-109 | the first 200 answer ends the loop with success and status 200; no later attempt is made |
| Fetch.RedirectLoopNotRetried | backend/app.py:130-136 | a redirect loop fails on that same attempt, whatever its index |
| Fetch.ThreeHttpErrors | backend/app.py:110-119 | three non-200 answers fail with the third answer's status code and its "HTTP error" message |
| Fetch.LastAttemptErrors | backend/app.py:121-145 | after two retried attempts, a timeout or request error on the third gives its own message |
| Fetch.UnknownErrorUnreachable | backend/app.py:150-156 | the trailing "Unknown error occurred" return is never reached |
| Fetch.SuccessTextIsNormalized | backend/app.py:93-99 | the text of a successful fetch has no leading or trailing whitespace, no whitespace runs and only plain spaces |
| Fetch.CleanPageTextShape | backend/app.py:96-99 | the three clean-up steps equal the page text's words joined by single spaces |
| Url.SplitOfComposed | backend/app.py:45-46 | `scheme://host` followed by a path splits back into the lower-cased scheme, the host and the path |
| Url.UrlSplit | backend/app.py:45-46 | `urlparse` as the guard reads it: the only error is the unbalanced-bracket one (scheme and network location pinned by `Url.SplitOfComposed`, `Url.NoColonNoScheme`, `Url.NoSlashNoNetloc`) |
| Url.NoColonNoScheme | backend/app.py:45-46 | a URL without a colon has an empty scheme |
| Url.NoSlashNoNetloc | backend/app.py:45-46 | a URL without a slash has an empty network location |
| Text.NormalizeIsJoinOfWords | backend/app.py:216 | collapsing whitespace runs and stripping equals the words of the text joined by single spaces |
| Text.CollapseShape | backend/app.py:216 | after collapsing, whitespace appears only as isolated plain spaces |
| Text.CollapseKeepsVisible | backend/app.py:216 | collapsing neither loses nor reorders a non-whitespace character |
| Text.WordsOfJoin | backend/app.py:216 | splitting words joined by single spaces gives the words back |
| Text.IntToStringRoundTrip | backend/app.py:115 | the decimal status code in the "HTTP error" message reads back as the code |
| Text.Find | backend/app.py:546-547 | the first occurrence of a character, or none exactly when it is absent |
| Text.FindLast | backend/app.py:546-547 | the last occurrence of a character, or none exactly when it is absent |
| Text.FindIs | backend/app.py:546-547 | an occurrence with none before it is the one found first |
| Text.FindLastIs | backend/app.py:546-547 | an occurrence with none after it is the one found last |
| Extract.Normalize | backend/app.py:216 | the cleaned text is the words joined by single spaces: trimmed, run-free, and with the same non-whitespace characters in order |
| Extract.Truncate | backend/app.py:219-221 | a text within 12000 characters is unchanged; a longer one comes out at exactly 12005 characters |
| Extract.TruncateIsHeadMarkerTail | backend/app.py:219-221 | a truncated text is the input's first 6000 characters, the marker, then the input's last 6000 characters |
| Extract.TruncateKeepsEnds | backend/app.py:219-221 | truncation keeps a trimmed text trimmed and adds no whitespace except plain spaces |
| Extract.JobText | backend/app.py:215-221 | the text sent on is trimmed, holds only plain spaces, is at most 12005 characters, and equals the joined words when short enough |
| Extract.TruncationExceedsBoundAndMayJoinSpaces | backend/app.py:219-221 | some normalised text truncates to more than 12000 characters with two adjacent spaces |
| Records.LoadRequiredSkills | backend/app.py:273-277 | a non-object is rejected as not a dictionary; an empty object gives four empty lists |
| Records.LoadJobSkills | backend/app.py:280-287 | a non-object is rejected; a missing `job_title` is a missing-field error; success needs `job_title` and `required_skills` |
| Records.LoadCompany | backend/app.py:304-308 | a non-object is rejected; success needs `company_overview` |
| Records.QuestionFrom | backend/app.py:320-323 | a question validates exactly when `question`, `difficulty` and `answer_tips` are all present as strings |
| Records.TipFrom | backend/app.py:311-313 | a tip validates exactly when `title` and `description` are both present as strings |
| Records.RequiredSkillsRoundTrip | backend/app.py:273-277 | validating a dumped skills record gives it back |
| Records.JobSkillsRoundTrip | backend/app.py:280-287 | validating a dumped job-skills record gives it back, optional fields included |
| Records.CompanyRoundTrip | backend/app.py:304-308 | validating a dumped company research record gives it back |
| Records.QuestionsRoundTrip | backend/app.py:320-323 | validating a dumped question list gives it back, in order |
| Records.TipsRoundTrip | backend/app.py:311-313 | validating a dumped tip list gives it back, in order |
| Records.InterviewPrepRoundTrip | backend/app.py:334-338 | validating a dumped interview-prep record gives it back |
| Aggregate.MessageText | backend/app.py:604-609 | only a message output with non-empty content yields text; it is the first part's text, and a refusal in first place yields none |
| Aggregate.OptionalOrBlank | backend/app.py:616-619 | an absent key gives "", a null gives None, a string gives itself, and any other value is the `string_type` error |
| Aggregate.CompanyFrom | backend/app.py:615-620 | the record builds exactly when `company_overview` is absent or a string and each optional field is absent, null or a string; the overview is that string or "", and each optional field is what `data.get(k, '')` gives |
| Aggregate.BuildAll | backend/app.py:622-626 | the list is built exactly when every element is a mapping that validates, one record per element in order; otherwise the first element that is not a mapping skips the item, or the first mapping that fails validation raises its error |
| Aggregate.BuildList | backend/app.py:622-626 | a list is built element by element; an empty string or object builds no records; a non-empty string or object, or any other value, skips the item |
| Aggregate.Classify | backend/app.py:604-628 | an item that is not a message decoding to a JSON object leaves the state alone; otherwise the object's keys decide |
| Aggregate.EffectsSplit | backend/app.py:603-628 | each item's effect depends on that item alone: the effects of a concatenation are the concatenated effects |
| Aggregate.FirstRaise | backend/app.py:607-628 | no error escapes exactly when no item raises a validation error; otherwise the message is that of a raising item with none before it |
| Aggregate.FoldIsLastWins | backend/app.py:597-628 | without a validation error, each section holds what the last item of its kind carried |
| Aggregate.FoldStopsAtFirstRaise | backend/app.py:607-628 | the first validation error ends the loop with that error |
| Aggregate.BuildIsLastWins | backend/app.py:597-645 | the result is the first validation error, or the last-wins sections with the company default and the tips fallback |
| Aggregate.Build | backend/app.py:592-645 | `build_interview_prep_output`: the first validation error, or the last-wins sections with the default company and the tips fallback (proved by `Aggregate.BuildIsLastWins`) |
| Aggregate.NoCompanyGivesDefault | backend/app.py:638-641 | with no company item, company research is four empty strings |
| Aggregate.LaterCompanyWins | backend/app.py:614-620 | a later company item overwrites an earlier one |
| Aggregate.TipsFallback | backend/app.py:631-633 | tips come from the final output exactly when the items collected none |
| Aggregate.FoldSkipsKeep | backend/app.py:603-628 | an effect that keeps the state can be removed from anywhere in the sequence |
| Aggregate.KeepItemIsInvisible | backend/app.py:603-628 | an item that is skipped, or whose parse fails, does not change the result |
| Aggregate.ClassifyByPrecedence | backend/app.py:614-626 | the section an object sets is the first of the four keys it holds; with none of them it changes nothing |
| Aggregate.FirstPresentOfPrecedence | backend/app.py:614-626 | the first present key is tested in the order company, technical, behavioral, tips |
| Aggregate.CompanyFromStrings | backend/app.py:615-620 | a company object with four strings yields exactly those strings |
| Aggregate.CompanyOverviewOnly | backend/app.py:615-620 | a company object with only the overview fills the other three fields with "" |
| Aggregate.QuestionsInOrder | backend/app.py:621-622 | valid question mappings are taken in order, one record each |
| Routes.Sniff | backend/app.py:546-548 | a sniffed span starts with `{` and ends with `}` |
| Routes.Respond | backend/app.py:536-554 | every final output of a successful run is answered with status 200; a plain dictionary is returned as it is |
| Routes.UrlRequiredIff | backend/app.py:521-523 | 400 "URL is required" is returned exactly when the body is falsy or its `url` is missing or falsy, and the agent run is not consulted then |
| Routes.AnalyzeJob | backend/app.py:519-558 | the handler: 400 without a URL, 500 with the message when the run raises, otherwise the 200 reply of `Routes.Respond` (proved by `Routes.UrlRequiredIff` and `Routes.RunFailureIs500`) |
| Routes.StructuredOutputRoundTrips | backend/app.py:536-538 | a structured output is answered with its dump, which validates back to the same record |
| Routes.RunFailureIs500 | backend/app.py:556-558 | a failed run is answered with 500 and the exception's message |
| Routes.TextOutputSniffed | backend/app.py:543-554 | a text output is answered with the decoded span when it decodes, and with `raw_output` otherwise |
| Routes.SniffExistsIff | backend/app.py:546-548 | a span is found exactly when some `{` comes before some `}` |
| Routes.SniffIsOutermostSpan | backend/app.py:546-549 | the span runs from the first `{` to the last `}` |
| Routes.SniffCutsProse | backend/app.py:546-549 | prose without braces around a braced body is cut away, whatever the body holds |
| Routes.SniffNeedsOrder | backend/app.py:546-552 | when every `}` of the text comes before every `{`, there is no span and the raw output is returned |
| Utf8.EncodeChar | backend/prometheus_remote.py:90 | a character becomes one to four bytes, as many as its lead byte announces |
| Utf8.DecodeEncode | backend/prometheus_remote.py:90 | UTF-8 decoding inverts `str.encode()` |
| Utf8.AsciiEncoding | backend/prometheus_remote.py:90 | ASCII text encodes to its code points, one byte each |
| Base64.Encode | backend/prometheus_remote.py:90 | the encoding is empty exactly when the input is |
| Base64.DecodeEncode | backend/prometheus_remote.py:90 | base 64 decoding inverts `base64.b64encode` |
| Base64.EncodeLength | backend/prometheus_remote.py:90 | every three bytes, or fewer at the end, become four characters |
| Base64.EncodeAlphabet | backend/prometheus_remote.py:90 | the encoding uses only the alphabet, with `=` only in the last two places |
| Base64.TestVectorTwoBytes | backend/prometheus_remote.py:90 | "fo" encodes to "Zm8=" |
| Base64.TestVectorFourBytes | backend/prometheus_remote.py:90 | "foob" encodes to "Zm9vYg==" |
| RemoteWrite.NewManager | backend/prometheus_remote.py:15-34 | a new manager is stopped, keeps its settings, and takes the host name when the instance name is falsy |
| RemoteWrite.FreshManagerIsValid | backend/prometheus_remote.py:28-34 | a new manager is not running, and so is valid (running only with a URL) |
| RemoteWrite.Start | backend/prometheus_remote.py:43-56 | running afterwards exactly when already running or a URL is configured; nothing else changes |
| RemoteWrite.Stop | backend/prometheus_remote.py:58-66 | never running afterwards; nothing else changes |
| RemoteWrite.StartEffect | backend/prometheus_remote.py:43-56 | start runs exactly when a URL is configured, changes nothing else, and a second start does nothing |
| RemoteWrite.StopEffect | backend/prometheus_remote.py:58-66 | stop always ends stopped, changes nothing else, and a second stop does nothing |
| RemoteWrite.ValidAfterCommands | backend/prometheus_remote.py:43-66 | after any sequence of starts and stops, the manager runs only with a URL |
| RemoteWrite.AuthHeaders | backend/prometheus_remote.py:86-91 | an Authorization header is present exactly when both username and password are non-empty |
| RemoteWrite.AuthHeaderRecoversCredentials | backend/prometheus_remote.py:86-91 | the header is "Basic " followed by text that decodes back to `username:password`, split at the username's end |
| RemoteWrite.LabelMap | backend/prometheus_remote.py:108-118 | labels are `__name__`, `job`, `instance` and the sample's own; the sample's own win; the name and the manager's job and instance fill the gaps |
| RemoteWrite.Flatten | backend/prometheus_remote.py:105-106 | no sample is collected exactly when every family is empty |
| RemoteWrite.FlattenAppend | backend/prometheus_remote.py:105-106 | each family's samples stay together and in order |
| RemoteWrite.Convert | backend/prometheus_remote.py:101-127 | one entry per sample, in order, each with its label map, its single value and the shared timestamp |
| RemoteWrite.Push | backend/prometheus_remote.py:101-137 | nothing is sent exactly when every family is empty; otherwise the URL, the auth headers and the converted entries are sent |
| RemoteWrite.EntriesCarryRequiredLabels | backend/prometheus_remote.py:108-118 | every entry carries the `__name__`, `job` and `instance` labels |
| RemoteWrite.SampleLabelsWin | backend/prometheus_remote.py:111-118 | a sample's own `job` and `instance` labels win over the manager's |
| Metrics.PricingLookup | backend/metrics.py:40-73 | the three listed models get their own rates; any other model gets the default |
| Metrics.PricingFor | backend/metrics.py:73 | `MODEL_PRICING.get(model, DEFAULT_PRICING)` (values pinned by `Metrics.PricingLookup`) |
| Metrics.Inc | backend/metrics.py:81-84 | an increment raises one counter by exactly the amount and leaves the others alone |
| Metrics.TrackUsageExact | backend/metrics.py:81-84 | the model's input and output token counters rise by exactly the counts and its output call counter by one; nothing else moves |
| Metrics.TrackUsage | backend/metrics.py:63-84 | `track_openai_usage` on the integer counters: exact increments with non-negative counts, the counter error with a negative one (proved by `Metrics.TrackUsageExact` and `Metrics.TrackUsageNegative`) |
| Metrics.TrackUsageNegative | backend/metrics.py:81-82 | a negative count raises; the input tokens stay counted when only the output count is negative |
| Metrics.TrackUsageAdds | backend/metrics.py:81-84 | two calls count the same tokens as one call with the summed counts |
| Metrics.StatusCode | backend/metrics.py:112 | the recorded status is the status line's prefix before its first space |
| Metrics.StatusCodeOfLine | backend/metrics.py:112 | "code reason" is recorded under "code" |
| Metrics.MetricsPathSkipped | backend/metrics.py:106-107 | a request for `/metrics` changes no counter |
| Metrics.RequestsCounted | backend/metrics.py:101-117 | for any other path, the (path, method, status) counter rises by one per response start with that status; nothing else moves |
| Metrics.Middleware | backend/metrics.py:101-127 | the request counter: `/metrics` is skipped, any other path counts one per response start under (path, method, status) (proved by `Metrics.MetricsPathSkipped` and `Metrics.RequestsCounted`) |

## Left out

- The agents, their prompts and handoffs, and the orchestrators (backend/app.py:341-503). They are driven by the language model. The agent run is an oracle that returns the final output or an exception message.
- The completion call of `extract_job_description` and the regex title/company scraping of its answer (backend/app.py:224-259). These are a foreign call and free-text heuristics.
- BeautifulSoup parsing, `<title>` lookup, selector matching and `get_text` (backend/app.py:84-91, 189-213). The extracted text is part of each attempt's outcome, and the raw page text is the input to the clean-up.
- `requests.get`, its headers and timeout, and the `time.sleep` between attempts. The timeout and delay are named constants only.
- Flask routing, CORS, `request.json`, `jsonify`, `run_async`, and `generate_interview_questions` with its `JobDetails`/`JobRequest` validation. These are I/O plumbing; the route handler's own decisions are modelled.
- The agent output wrappers `PrepTipsOutput`, `TechnicalQuestionsOutput` and `BehavioralQuestionsOutput`. Only the agents use them; for the tips fallback the final output's `preparation_tips` is an optional input.
- Pydantic's full error reports. Validation returns the first error message only. Input is JSON-shaped, so a non-string where a string is required is an error, as pydantic v2 reports it (`string_type`).
- `json.loads` itself. It is an oracle from text to an optional JSON value, and JSON numbers are integers because no fraction reaches a decision.
- RemoteWrite.Credentials: strings are sequences of Unicode scalar values, so a Python string holding a lone surrogate (which `os.environ` produces from bytes that are not UTF-8) cannot occur, and the `UnicodeEncodeError` that `auth_string.encode()` raises for it (backend/prometheus_remote.py:90) is not modelled.
- Url.UrlSplit: the bracketed-host checks beyond "both brackets or neither", the NFKC network-location check and the query/fragment split are left out. The guard only reads the scheme and the network location.
- The background push thread, `REGISTRY.collect()`, `RemoteWriter.send`, `socket.gethostname()` and the clock. These are concurrency and foreign calls. Collected families, the host name and the time in milliseconds are inputs, and a push returns the request it would send.
- Float arithmetic: the USD cost and its counter (backend/metrics.py:76-78, 83), sample values beyond carrying them as `real`, and the request-duration histogram (backend/metrics.py:119-123).
- `init_metrics` and the `backend_info` metric: a static version string and the clock.
- Metrics.TrackUsage: token counts are integers. Python would also accept float counts, which the counters store as floats.
- The `/api/health` route: a constant reply.

=== FILE: aggregate.dfy ===
/** `build_interview_prep_output` (backend/app.py:592-645): a left fold over the run's items that
    keeps, per section, what the last item of that kind carried.

    `json.loads` is the oracle `decode` (`None` when it raises `JSONDecodeError`). Pydantic's
    `ValidationError` is not among the exceptions the loop catches, so a record that fails
    validation ends the whole call with an error; the exceptions the loop does catch make the
    item a no-op. */
module Aggregate {
  import opened Wrappers
  import opened Json
  import opened Records

  const MessageOutputItem: string := "message_output_item"

  /** One part of a message's content: text, or a refusal (which has no `text` attribute). */
  datatype ContentPart = OutputText(text: string) | Refusal(refusal: string)

  /** A run item: its `type`, and the `content` of its `raw_item` (`None` when there is no raw
      item or it has no `content`). */
  datatype RunItem = RunItem(kind: string, content: Option<seq<ContentPart>>)

  /** What one item does to the accumulated sections; it does not depend on earlier items. */
  datatype Effect =
    | Keep
    | SetCompany(company: CompanyResearch)
    | SetTechnical(questions: seq<InterviewQuestion>)
    | SetBehavioral(questions: seq<InterviewQuestion>)
    | SetTips(tips: seq<PreparationTip>)
    | Raise(message: string)

  /** The four local variables of the loop. */
  datatype State = State(
    company: Option<CompanyResearch>,
    technical: seq<InterviewQuestion>,
    behavioral: seq<InterviewQuestion>,
    tips: seq<PreparationTip>)

  const Initial: State := State(None, [], [], [])

  /** The company research used when no item supplied one. */
  const DefaultCompany: CompanyResearch := CompanyResearch("", Some(""), Some(""), Some(""))

  /** The keys that classify a decoded object, in the order they are tested. */
  const Precedence: seq<string> := ["company_overview", "technical_questions", "behavioral_questions", "preparation_tips"]

  /** Building a list of records: a non-mapping element raises `TypeError` (caught, so the item
      is skipped); a mapping that fails validation raises `ValidationError` (not caught). */
  datatype Listing<T> = Skipped | Raised(message: string) | Built(records: seq<T>)

  // ---------------------------------------------------------------- one item

  /** `raw_item.content[0].text`, when the item is a message output whose first part has text. */
  function MessageText(item: RunItem): (r: Option<string>)
    ensures r.Some? ==> item.kind == MessageOutputItem
    ensures item.content.None? || item.content.value == [] ==> r.None?
    ensures item.kind == MessageOutputItem && item.content.Some? && item.content.value != [] ==>
      r == (match item.content.value[0]
            case OutputText(t) => Some(t)
            case Refusal(_) => None)
  {
    if item.kind != MessageOutputItem then None
    else match item.content
      case None => None
      case Some(parts) =>
        if parts == [] then None
        else match parts[0]
          case OutputText(t) => Some(t)
          case Refusal(_) => None
  }

  /** `data.get(key, '')` passed to an `Optional[str]` field. */
  function OptionalOrBlank(f: map<string, Json>, key: string): (r: Result<Option<string>>)
    ensures key !in f ==> r == Ok(Some(""))
    ensures key in f && f[key] == JNull ==> r == Ok(None)
    ensures key in f && f[key].JStr? ==> r == Ok(Some(f[key].s))
    ensures key in f && f[key] != JNull && !f[key].JStr? ==> r == Err(StringType)
  {
    if key !in f then Ok(Some("")) else OptionalStr(f, key)
  }

  /** The company-research record built from a decoded object. */
  function CompanyFrom(f: map<string, Json>): (r: Result<CompanyResearch>)
    ensures r.Ok? <==>
      && ("company_overview" !in f || f["company_overview"].JStr?)
      && OptionalOrBlank(f, "culture_and_values").Ok?
      && OptionalOrBlank(f, "interview_process").Ok?
      && OptionalOrBlank(f, "recent_news").Ok?
    ensures r.Ok? ==> ("company_overview" in f ==> f["company_overview"] == JStr(r.value.overview))
    ensures r.Ok? ==> "company_overview" !in f ==> r.value.overview == ""
    ensures r.Ok? ==> r.value.culture == OptionalOrBlank(f, "culture_and_values").value
    ensures r.Ok? ==> r.value.process == OptionalOrBlank(f, "interview_process").value
    ensures r.Ok? ==> r.value.news == OptionalOrBlank(f, "recent_news").value
  {
    var overview :- if "company_overview" in f then Str(f["company_overview"]) else Ok("");
    var culture :- OptionalOrBlank(f, "culture_and_values");
    var process :- OptionalOrBlank(f, "interview_process");
    var news :- OptionalOrBlank(f, "recent_news");
    Ok(CompanyResearch(overview, culture, process, news))
  }

  /** The element is a mapping that validates as a record. */
  predicate Validates<T>(x: Json, from: map<string, Json> -> Result<T>) {
    x.JObj? && from(x.fields).Ok?
  }

  /** `[Model(**x) for x in items]`, stopping at the first element that raises: the list is built
      exactly when every element is a mapping that validates; otherwise the first element that
      is not a mapping skips the item, or the first mapping that fails validation raises its
      error. */
  function BuildAll<T>(items: seq<Json>, from: map<string, Json> -> Result<T>): (r: Listing<T>)
    ensures r.Built? <==> forall i :: 0 <= i < |items| ==> Validates(items[i], from)
    ensures r.Built? ==> |r.records| == |items|
    ensures r.Built? ==> forall i :: 0 <= i < |items| ==> from(items[i].fields) == Ok(r.records[i])
    ensures r.Raised? ==>
      exists k :: 0 <= k < |items| && items[k].JObj? && from(items[k].fields) == Err(r.message) &&
        forall j :: 0 <= j < k ==> Validates(items[j], from)
    ensures r.Skipped? ==>
      exists k :: 0 <= k < |items| && !items[k].JObj? &&
        forall j :: 0 <= j < k ==> Validates(items[j], from)
  {
    if items == [] then Built([])
    else match items[0]
      case JObj(f) =>
        (match from(f)
         case Err(m) => Raised(m)
         case Ok(x) =>
           match BuildAll(items[1..], from)
           case Built(rest) => Built([x] + rest)
           case other => other)
      case _ => Skipped
  }

  /** Iterating a decoded value: a list yields its elements; a string yields its characters and an
      object its keys, none of them mappings; any other value is not iterable (`TypeError`). */
  function BuildList<T>(v: Json, from: map<string, Json> -> Result<T>): (r: Listing<T>)
    ensures v.JArr? ==> r == BuildAll(v.items, from)
    ensures v.JStr? ==> (if v.s == [] then r == Built([]) else r.Skipped?)
    ensures v.JObj? ==> (if v.fields == map[] then r == Built([]) else r.Skipped?)
    ensures !v.JArr? && !v.JStr? && !v.JObj? ==> r.Skipped?
  {
    match v
    case JArr(items) => BuildAll(items, from)
    case JStr(s) => if s == [] then Built([]) else Skipped
    case JObj(f) => if f == map[] then Built([]) else Skipped
    case _ => Skipped
  }

  function CompanyEffect(f: map<string, Json>): Effect {
    match CompanyFrom(f)
    case Ok(c) => SetCompany(c)
    case Err(m) => Raise(m)
  }

  function TechnicalEffect(l: Listing<InterviewQuestion>): Effect {
    match l
    case Skipped => Keep
    case Raised(m) => Raise(m)
    case Built(qs) => SetTechnical(qs)
  }

  function BehavioralEffect(l: Listing<InterviewQuestion>): Effect {
    match l
    case Skipped => Keep
    case Raised(m) => Raise(m)
    case Built(qs) => SetBehavioral(qs)
  }

  function TipsEffect(l: Listing<PreparationTip>): Effect {
    match l
    case Skipped => Keep
    case Raised(m) => Raise(m)
    case Built(ts) => SetTips(ts)
  }

  /** The branch chain on the keys of a decoded object. */
  function ObjectEffect(f: map<string, Json>): Effect {
    if "company_overview" in f then CompanyEffect(f)
    else if "technical_questions" in f then TechnicalEffect(BuildList(f["technical_questions"], QuestionFrom))
    else if "behavioral_questions" in f then BehavioralEffect(BuildList(f["behavioral_questions"], QuestionFrom))
    else if "preparation_tips" in f then TipsEffect(BuildList(f["preparation_tips"], TipFrom))
    else Keep
  }

  /** The effect of one run item. Anything but an object leaves the state alone: for a list,
      string or scalar, `in` and `.get`/`[...]` either find no key or raise an exception the loop
      catches. */
  function Classify(item: RunItem, decode: string -> Option<Json>): (e: Effect)
    ensures !DecodesToObject(item, decode) ==> e == Keep
    ensures DecodesToObject(item, decode) ==> e == ObjectEffect(decode(MessageText(item).value).value.fields)
  {
    match MessageText(item)
    case None => Keep
    case Some(text) =>
      match decode(text)
      case None => Keep
      case Some(JObj(f)) => ObjectEffect(f)
      case Some(_) => Keep
  }

  /** The item is a message output whose text decodes to a JSON object. */
  predicate DecodesToObject(item: RunItem, decode: string -> Option<Json>) {
    MessageText(item).Some? && decode(MessageText(item).value).Some? && decode(MessageText(item).value).value.JObj?
  }

  /** The effect of each item, in order. The ensures only unfold the comprehension for the proofs
      below; what the effects mean is stated by `EffectsSplit` and the fold lemmas. */
  function Effects(items: seq<RunItem>, decode: string -> Option<Json>): (effs: seq<Effect>)
    ensures |effs| == |items|
    ensures forall i :: 0 <= i < |items| ==> effs[i] == Classify(items[i], decode)
  {
    seq(|items|, i requires 0 <= i < |items| => Classify(items[i], decode))
  }

  // ---------------------------------------------------------------- the fold

  function Apply(st: State, e: Effect): State {
    match e
    case Keep => st
    case SetCompany(c) => st.(company := Some(c))
    case SetTechnical(qs) => st.(technical := qs)
    case SetBehavioral(qs) => st.(behavioral := qs)
    case SetTips(ts) => st.(tips := ts)
    case Raise(_) => st
  }

  /** The loop: effects applied left to right; the first `Raise` escapes. */
  function Fold(st: State, effs: seq<Effect>): Result<State>
    decreases |effs|
  {
    if effs == [] then Ok(st)
    else if effs[0].Raise? then Err(effs[0].message)
    else Fold(Apply(st, effs[0]), effs[1..])
  }

  /** The whole function: the fold, the `final_output` fallback for tips, and the defaults.
      `finalTips` is `final_output.preparation_tips` when the final output has that attribute. */
  function Build(items: seq<RunItem>, decode: string -> Option<Json>, finalTips: Option<seq<PreparationTip>>)
    : Result<InterviewPrep>
  {
    var st :- Fold(Initial, Effects(items, decode));
    var tips := if st.tips == [] && finalTips.Some? then finalTips.value else st.tips;
    Ok(InterviewPrep(st.company.GetOr(DefaultCompany), st.technical, st.behavioral, tips))
  }

  // ---------------------------------------------------------------- reference: last one wins

  /** The message of the first effect that raises. */
  function FirstRaise(effs: seq<Effect>): (r: Option<string>)
    ensures r.None? <==> forall i :: 0 <= i < |effs| ==> !effs[i].Raise?
    ensures r.Some? ==>
      exists k :: 0 <= k < |effs| && effs[k] == Raise(r.value) &&
        forall j :: 0 <= j < k ==> !effs[j].Raise?
  {
    if effs == [] then None
    else if effs[0].Raise? then Some(effs[0].message)
    else FirstRaise(effs[1..])
  }

  function Last(effs: seq<Effect>): Effect
    requires effs != []
  {
    effs[|effs| - 1]
  }

  function Init(effs: seq<Effect>): seq<Effect>
    requires effs != []
  {
    effs[..|effs| - 1]
  }

  /** The company of the last company item, if any. */
  function LastCompany(effs: seq<Effect>): Option<CompanyResearch> {
    if effs == [] then None
    else if Last(effs).SetCompany? then Some(Last(effs).company)
    else LastCompany(Init(effs))
  }

  /** The questions of the last technical item, `[]` if there is none. */
  function LastTechnical(effs: seq<Effect>): seq<InterviewQuestion> {
    if effs == [] then []
    else if Last(effs).SetTechnical? then Last(effs).questions
    else LastTechnical(Init(effs))
  }

  function LastBehavioral(effs: seq<Effect>): seq<InterviewQuestion> {
    if effs == [] then []
    else if Last(effs).SetBehavioral? then Last(effs).questions
    else LastBehavioral(Init(effs))
  }

  function LastTips(effs: seq<Effect>): seq<PreparationTip> {
    if effs == [] then []
    else if Last(effs).SetTips? then Last(effs).tips
    else LastTips(Init(effs))
  }

  function LastState(effs: seq<Effect>): State {
    State(LastCompany(effs), LastTechnical(effs), LastBehavioral(effs), LastTips(effs))
  }

  // ---------------------------------------------------------------- fold lemmas

  /** Running the loop one item further. */
  lemma {:induction false} FoldSnoc(st: State, effs: seq<Effect>, e: Effect)
    requires FirstRaise(effs).None? && !e.Raise?
    ensures Fold(st, effs).Ok?
    ensures Fold(st, effs + [e]) == Ok(Apply(Fold(st, effs).value, e))
    decreases |effs|
  {
    if effs == [] {
      assert [] + [e] == [e];
    } else {
      assert (effs + [e])[1..] == effs[1..] + [e];
      FoldSnoc(Apply(st, effs[0]), effs[1..], e);
    }
  }

  lemma LastStateSnoc(effs: seq<Effect>, e: Effect)
    ensures LastState(effs + [e]) == Apply(LastState(effs), e)
  {
    var s := effs + [e];
    assert Last(s) == e && Init(s) == effs;
  }

  /** Without a raising item, the loop leaves each section with what the last item of its kind
      carried. */
  lemma {:induction false} FoldIsLastWins(effs: seq<Effect>)
    requires FirstRaise(effs).None?
    ensures Fold(Initial, effs) == Ok(LastState(effs))
  {
    if effs != [] {
      var p, e := Init(effs), Last(effs);
      assert effs == p + [e];
      assert FirstRaise(p).None? by {
        forall i | 0 <= i < |p| ensures !p[i].Raise? {
          assert p[i] == effs[i];
        }
      }
      FoldIsLastWins(p);
      FoldSnoc(Initial, p, e);
      LastStateSnoc(p, e);
    }
  }

  /** The first raising item ends the loop with its error, whatever follows it. */
  lemma {:induction false} FoldStopsAtFirstRaise(st: State, effs: seq<Effect>)
    requires FirstRaise(effs).Some?
    ensures Fold(st, effs) == Err(FirstRaise(effs).value)
    decreases |effs|
  {
    if !effs[0].Raise? {
      FoldStopsAtFirstRaise(Apply(st, effs[0]), effs[1..]);
    }
  }

  /** `build_interview_prep_output` against its reference: the first validation error, or each
      section from the last item of its kind, company defaulted, tips falling back to the final
      output only when none were collected. */
  lemma BuildIsLastWins(items: seq<RunItem>, decode: string -> Option<Json>, finalTips: Option<seq<PreparationTip>>)
    ensures var effs := Effects(items, decode);
      Build(items, decode, finalTips) ==
        if FirstRaise(effs).Some? then Err(FirstRaise(effs).value)
        else
          var tips := LastTips(effs);
          Ok(InterviewPrep(
            LastCompany(effs).GetOr(DefaultCompany),
            LastTechnical(effs),
            LastBehavioral(effs),
            if tips == [] && finalTips.Some? then finalTips.value else tips))
  {
    var effs := Effects(items, decode);
    if FirstRaise(effs).Some? {
      FoldStopsAtFirstRaise(Initial, effs);
    } else {
      FoldIsLastWins(effs);
    }
  }

  /** With no company item, company research is four empty strings. */
  lemma NoCompanyGivesDefault(items: seq<RunItem>, decode: string -> Option<Json>, finalTips: Option<seq<PreparationTip>>)
    requires forall i :: 0 <= i < |items| ==> !Classify(items[i], decode).SetCompany?
    requires Build(items, decode, finalTips).Ok?
    ensures Build(items, decode, finalTips).value.company == CompanyResearch("", Some(""), Some(""), Some(""))
  {
    BuildIsLastWins(items, decode, finalTips);
    NoCompanyEffect(Effects(items, decode));
  }

  lemma {:induction false} NoCompanyEffect(effs: seq<Effect>)
    requires forall i :: 0 <= i < |effs| ==> !effs[i].SetCompany?
    ensures LastCompany(effs).None?
  {
    if effs != [] {
      assert !Last(effs).SetCompany?;
      NoCompanyEffect(Init(effs));
    }
  }

  /** A later company item overwrites an earlier one. */
  lemma LaterCompanyWins(items: seq<RunItem>, item: RunItem, decode: string -> Option<Json>, finalTips: Option<seq<PreparationTip>>)
    requires Classify(item, decode).SetCompany?
    requires Build(items + [item], decode, finalTips).Ok?
    ensures Build(items + [item], decode, finalTips).value.company == Classify(item, decode).company
  {
    var effs := Effects(items + [item], decode);
    BuildIsLastWins(items + [item], decode, finalTips);
    assert Last(effs) == Classify(item, decode);
  }

  /** Tips come from the final output exactly when the items collected none. */
  lemma TipsFallback(items: seq<RunItem>, decode: string -> Option<Json>, finalTips: Option<seq<PreparationTip>>)
    requires Build(items, decode, finalTips).Ok?
    ensures LastTips(Effects(items, decode)) != [] ==>
      Build(items, decode, finalTips).value.tips == LastTips(Effects(items, decode))
    ensures LastTips(Effects(items, decode)) == [] && finalTips.Some? ==>
      Build(items, decode, finalTips).value.tips == finalTips.value
    ensures LastTips(Effects(items, decode)) == [] && finalTips.None? ==>
      Build(items, decode, finalTips).value.tips == []
  {
    BuildIsLastWins(items, decode, finalTips);
  }

  // ---------------------------------------------------------------- items that change nothing

  lemma {:induction false} FoldSkipsKeep(st: State, a: seq<Effect>, b: seq<Effect>)
    ensures Fold(st, a + [Keep] + b) == Fold(st, a + b)
    decreases |a|
  {
    if a == [] {
      assert [] + [Keep] + b == [Keep] + b;
      assert ([Keep] + b)[1..] == b;
      assert Fold(st, [Keep] + b) == Fold(Apply(st, Keep), b);
      assert a + b == b;
    } else {
      assert (a + [Keep] + b)[0] == a[0] && (a + b)[0] == a[0];
      assert (a + [Keep] + b)[1..] == a[1..] + [Keep] + b;
      assert (a + b)[1..] == a[1..] + b;
      if !a[0].Raise? {
        FoldSkipsKeep(Apply(st, a[0]), a[1..], b);
      }
    }
  }

  /** Each item's effect depends on that item alone: classifying a concatenation classifies the
      parts separately. */
  lemma EffectsSplit(a: seq<RunItem>, x: RunItem, b: seq<RunItem>, decode: string -> Option<Json>)
    ensures Effects(a + [x] + b, decode) == Effects(a, decode) + [Classify(x, decode)] + Effects(b, decode)
    ensures Effects(a + b, decode) == Effects(a, decode) + Effects(b, decode)
  {
    EffectsAppend(a, b, decode);
    EffectsAppend(a, [x], decode);
    EffectsAppend(a + [x], b, decode);
  }

  lemma EffectsAppend(a: seq<RunItem>, b: seq<RunItem>, decode: string -> Option<Json>)
    ensures Effects(a + b, decode) == Effects(a, decode) + Effects(b, decode)
  {
    var l, r := Effects(a + b, decode), Effects(a, decode) + Effects(b, decode);
    forall i | 0 <= i < |l| ensures l[i] == r[i] {
      if i < |a| {
        assert (a + b)[i] == a[i];
      } else {
        assert (a + b)[i] == b[i - |a|];
      }
    }
  }

  /** An item that is not a parsable message, or parses to something unclassified, can be
      removed without changing the result. */
  lemma KeepItemIsInvisible(a: seq<RunItem>, x: RunItem, b: seq<RunItem>, decode: string -> Option<Json>,
                             finalTips: Option<seq<PreparationTip>>)
    requires Classify(x, decode) == Keep
    ensures Build(a + [x] + b, decode, finalTips) == Build(a + b, decode, finalTips)
  {
    EffectsSplit(a, x, b, decode);
    FoldSkipsKeep(Initial, Effects(a, decode), Effects(b, decode));
  }

  // ---------------------------------------------------------------- classification

  /** The first key of `keys` present in `f`. */
  function FirstPresent(f: map<string, Json>, keys: seq<string>): (r: Option<string>)
    ensures r.Some? ==> r.value in f && r.value in keys
    ensures r.None? <==> forall i :: 0 <= i < |keys| ==> keys[i] !in f
  {
    if keys == [] then None
    else if keys[0] in f then Some(keys[0])
    else FirstPresent(f, keys[1..])
  }

  /** The key that classifies an item with the given effect. */
  function SectionKey(e: Effect): Option<string> {
    match e
    case SetCompany(_) => Some(Precedence[0])
    case SetTechnical(_) => Some(Precedence[1])
    case SetBehavioral(_) => Some(Precedence[2])
    case SetTips(_) => Some(Precedence[3])
    case _ => None
  }

  /** An object's section is decided by the first of `company_overview`, `technical_questions`,
      `behavioral_questions`, `preparation_tips` that it contains; with none of them it is
      ignored, and a `company_overview` object always yields company research or an error. */
  lemma ClassifyByPrecedence(f: map<string, Json>)
    ensures SectionKey(ObjectEffect(f)).Some? ==> SectionKey(ObjectEffect(f)) == FirstPresent(f, Precedence)
    ensures FirstPresent(f, Precedence).None? ==> ObjectEffect(f) == Keep
    ensures "company_overview" in f ==> ObjectEffect(f).SetCompany? || ObjectEffect(f).Raise?
  {
    FirstPresentOfPrecedence(f);
    if "company_overview" in f {
      assert CompanyEffect(f).SetCompany? || CompanyEffect(f).Raise?;
    } else if "technical_questions" in f {
      var l := BuildList(f["technical_questions"], QuestionFrom);
      assert ObjectEffect(f) == TechnicalEffect(l);
    } else if "behavioral_questions" in f {
      var l := BuildList(f["behavioral_questions"], QuestionFrom);
      assert ObjectEffect(f) == BehavioralEffect(l);
    } else if "preparation_tips" in f {
      var l := BuildList(f["preparation_tips"], TipFrom);
      assert ObjectEffect(f) == TipsEffect(l);
    }
  }

  lemma FirstPresentOfPrecedence(f: map<string, Json>)
    ensures FirstPresent(f, Precedence) ==
      if "company_overview" in f then Some("company_overview")
      else if "technical_questions" in f then Some("technical_questions")
      else if "behavioral_questions" in f then Some("behavioral_questions")
      else if "preparation_tips" in f then Some("preparation_tips")
      else None
  {
    var k := Precedence;
    assert k[0] == "company_overview" && k[1..][0] == "technical_questions";
    assert k[1..][1..][0] == "behavioral_questions" && k[1..][1..][1..][0] == "preparation_tips";
    assert k[1..][1..][1..][1..] == [];
    assert FirstPresent(f, k[1..][1..][1..]) ==
      if "preparation_tips" in f then Some("preparation_tips") else None;
    assert FirstPresent(f, k[1..][1..]) ==
      if "behavioral_questions" in f then Some("behavioral_questions") else FirstPresent(f, k[1..][1..][1..]);
    assert FirstPresent(f, k[1..]) ==
      if "technical_questions" in f then Some("technical_questions") else FirstPresent(f, k[1..][1..]);
  }

  /** A company object whose fields are all strings yields exactly those strings. */
  lemma CompanyFromStrings(f: map<string, Json>, overview: string, culture: string, process: string, news: string)
    requires f == map["company_overview" := JStr(overview), "culture_and_values" := JStr(culture),
                      "interview_process" := JStr(process), "recent_news" := JStr(news)]
    ensures ObjectEffect(f) == SetCompany(CompanyResearch(overview, Some(culture), Some(process), Some(news)))
  {
  }

  /** An object with only `company_overview` fills the three optional fields with "". */
  lemma CompanyOverviewOnly(overview: string)
    ensures ObjectEffect(map["company_overview" := JStr(overview)])
      == SetCompany(CompanyResearch(overview, Some(""), Some(""), Some("")))
  {
  }

  /** A question list whose elements are all valid mappings is taken in order, one record each. */
  lemma QuestionsInOrder(f: map<string, Json>)
    requires "company_overview" !in f && "technical_questions" in f
    requires ObjectEffect(f).SetTechnical?
    ensures f["technical_questions"].JArr? ==>
      var items := f["technical_questions"].items;
      |ObjectEffect(f).questions| == |items|
      && forall i :: 0 <= i < |items| ==> items[i].JObj? && QuestionFrom(items[i].fields) == Ok(ObjectEffect(f).questions[i])
  {
  }
}

=== FILE: base64.dfy ===
/** Base 64 encoding as `base64.b64encode` produces it: the standard alphabet and `=` padding of
    section 4 of RFC 4648, with the matching decoder. */
module Base64 {
  import opened Wrappers
  import opened Utf8

  type sextet = x: nat | x < 64

  /** The character for a 6-bit value: `A`-`Z`, `a`-`z`, `0`-`9`, `+`, `/`. */
  function Symbol(n: sextet): (c: char)
    ensures IsSymbol(c)
  {
    if n < 26 then ('A' as int + n) as char
    else if n < 52 then ('a' as int + (n - 26)) as char
    else if n < 62 then ('0' as int + (n - 52)) as char
    else if n == 62 then '+'
    else '/'
  }

  predicate IsSymbol(c: char) {
    ('A' <= c <= 'Z') || ('a' <= c <= 'z') || ('0' <= c <= '9') || c == '+' || c == '/'
  }

  /** The 6-bit value of an alphabet character. */
  function Value(c: char): sextet
    requires IsSymbol(c)
  {
    if 'A' <= c <= 'Z' then c as int - 'A' as int
    else if 'a' <= c <= 'z' then c as int - 'a' as int + 26
    else if '0' <= c <= '9' then c as int - '0' as int + 52
    else if c == '+' then 62
    else 63
  }

  lemma ValueOfSymbol(n: sextet)
    ensures Value(Symbol(n)) == n
  {
  }

  /** One quantum: three bytes give four characters; a final one or two bytes are padded. */
  function EncodeGroup(b: seq<byte>): (r: string)
    requires 1 <= |b| <= 3
    ensures |r| == 4
  {
    var b1 := if |b| > 1 then b[1] else 0;
    var b2 := if |b| > 2 then b[2] else 0;
    var c0 := Symbol(b[0] / 4);
    var c1 := Symbol((b[0] % 4) * 16 + b1 / 16);
    var c2 := if |b| > 1 then Symbol((b1 % 16) * 4 + b2 / 64) else '=';
    var c3 := if |b| > 2 then Symbol(b2 % 64) else '=';
    [c0, c1, c2, c3]
  }

  function Encode(b: seq<byte>): (r: string)
    ensures b == [] <==> r == []
    decreases |b|
  {
    if b == [] then []
    else if |b| <= 3 then EncodeGroup(b)
    else EncodeGroup(b[..3]) + Encode(b[3..])
  }

  /** The bytes of one four-character quantum, reading `=` as padding. */
  function DecodeGroup(s: string): (r: Option<seq<byte>>)
    requires |s| == 4
  {
    if !IsSymbol(s[0]) || !IsSymbol(s[1]) then None
    else if s[2] == '=' && s[3] == '=' then
      Some([Value(s[0]) * 4 + Value(s[1]) / 16])
    else if !IsSymbol(s[2]) then None
    else if s[3] == '=' then
      Some([Value(s[0]) * 4 + Value(s[1]) / 16, (Value(s[1]) % 16) * 16 + Value(s[2]) / 4])
    else if !IsSymbol(s[3]) then None
    else
      Some([Value(s[0]) * 4 + Value(s[1]) / 16, (Value(s[1]) % 16) * 16 + Value(s[2]) / 4,
            (Value(s[2]) % 4) * 64 + Value(s[3])])
  }

  /** Decoding: padding may only close the last quantum. */
  function Decode(s: string): (r: Option<seq<byte>>)
    decreases |s|
  {
    if s == [] then Some([])
    else if |s| < 4 then None
    else match DecodeGroup(s[..4])
      case None => None
      case Some(head) =>
        if |head| < 3 && |s| > 4 then None
        else match Decode(s[4..])
          case None => None
          case Some(tail) => Some(head + tail)
  }

  // ---------------------------------------------------------------- round trip

  lemma SplitByte(x: byte, k: nat)
    requires k == 4 || k == 16 || k == 64
    ensures (x / k) * k + x % k == x
    ensures x / k < 256 / k
  {
  }

  /** Recombining a value shifted left past a smaller remainder. */
  lemma Recombine(a: nat, r: nat, k: nat)
    requires k == 4 || k == 16 || k == 64
    requires r < k
    ensures (a * k + r) / k == a && (a * k + r) % k == r
  {
  }

  /** The bit arithmetic of a full quantum: the four sextets put back together give the three
      bytes. */
  lemma FullGroupArith(x0: byte, x1: byte, x2: byte)
    ensures (x0 / 4) * 4 + ((x0 % 4) * 16 + x1 / 16) / 16 == x0
    ensures (((x0 % 4) * 16 + x1 / 16) % 16) * 16 + ((x1 % 16) * 4 + x2 / 64) / 4 == x1
    ensures (((x1 % 16) * 4 + x2 / 64) % 4) * 64 + x2 % 64 == x2
  {
    SplitByte(x0, 4);
    SplitByte(x1, 16);
    SplitByte(x2, 64);
    Recombine(x0 % 4, x1 / 16, 16);
    Recombine(x1 % 16, x2 / 64, 4);
  }

  lemma DecodeFullGroup(b: seq<byte>)
    requires |b| == 3
    ensures DecodeGroup(EncodeGroup(b)) == Some(b)
  {
    var v0, v1 := b[0] / 4, (b[0] % 4) * 16 + b[1] / 16;
    var v2, v3 := (b[1] % 16) * 4 + b[2] / 64, b[2] % 64;
    ValueOfSymbol(v0);
    ValueOfSymbol(v1);
    ValueOfSymbol(v2);
    ValueOfSymbol(v3);
    FullGroupArith(b[0], b[1], b[2]);
    var s := EncodeGroup(b);
    assert s == [Symbol(v0), Symbol(v1), Symbol(v2), Symbol(v3)];
    assert [b[0], b[1], b[2]] == b;
  }

  lemma DecodeTwoByteGroup(b: seq<byte>)
    requires |b| == 2
    ensures DecodeGroup(EncodeGroup(b)) == Some(b)
  {
    SplitByte(b[0], 4);
    SplitByte(b[1], 16);
    Recombine(b[0] % 4, b[1] / 16, 16);
    Recombine(b[1] % 16, 0, 4);
    ValueOfSymbol(b[0] / 4);
    ValueOfSymbol((b[0] % 4) * 16 + b[1] / 16);
    ValueOfSymbol((b[1] % 16) * 4);
    var s := EncodeGroup(b);
    assert s[2] != '=' && s[3] == '=';
    assert Value(s[0]) == b[0] / 4;
    assert Value(s[1]) == (b[0] % 4) * 16 + b[1] / 16;
    assert Value(s[2]) == (b[1] % 16) * 4;
    assert Value(s[0]) * 4 + Value(s[1]) / 16 == b[0];
    assert (Value(s[1]) % 16) * 16 + Value(s[2]) / 4 == b[1];
    assert [b[0], b[1]] == b;
  }

  lemma DecodeOneByteGroup(b: seq<byte>)
    requires |b| == 1
    ensures DecodeGroup(EncodeGroup(b)) == Some(b)
  {
    SplitByte(b[0], 4);
    Recombine(b[0] % 4, 0, 16);
    ValueOfSymbol(b[0] / 4);
    ValueOfSymbol((b[0] % 4) * 16);
    var s := EncodeGroup(b);
    assert s[2] == '=' && s[3] == '=';
    assert Value(s[0]) == b[0] / 4;
    assert Value(s[1]) == (b[0] % 4) * 16;
    assert Value(s[0]) * 4 + Value(s[1]) / 16 == b[0];
    assert [b[0]] == b;
  }

  lemma DecodeEncodeGroup(b: seq<byte>)
    requires 1 <= |b| <= 3
    ensures DecodeGroup(EncodeGroup(b)) == Some(b)
  {
    if |b| == 1 {
      DecodeOneByteGroup(b);
    } else if |b| == 2 {
      DecodeTwoByteGroup(b);
    } else {
      DecodeFullGroup(b);
    }
  }

  /** Decoding inverts encoding. */
  lemma {:induction false} DecodeEncode(b: seq<byte>)
    ensures Decode(Encode(b)) == Some(b)
    decreases |b|
  {
    if b == [] {
    } else if |b| <= 3 {
      DecodeEncodeGroup(b);
      assert Encode(b)[..4] == EncodeGroup(b) && Encode(b)[4..] == [];
      assert b + [] == b;
    } else {
      var s, g := Encode(b), EncodeGroup(b[..3]);
      assert s == g + Encode(b[3..]);
      assert s[..4] == g && s[4..] == Encode(b[3..]);
      DecodeEncodeGroup(b[..3]);
      DecodeEncode(b[3..]);
      assert b[..3] + b[3..] == b;
    }
  }

  /** Every three bytes, or fewer at the end, become four characters. */
  lemma {:induction false} EncodeLength(b: seq<byte>)
    ensures |Encode(b)| == 4 * ((|b| + 2) / 3)
    decreases |b|
  {
    if |b| > 3 {
      EncodeLength(b[3..]);
      assert |Encode(b)| == 4 + |Encode(b[3..])|;
      assert (|b| + 2) / 3 == (|b| - 3 + 2) / 3 + 1;
    }
  }

  /** The encoding uses only alphabet characters, with `=` padding only at the end. */
  lemma {:induction false} EncodeAlphabet(b: seq<byte>)
    ensures forall i :: 0 <= i < |Encode(b)| ==>
      IsSymbol(Encode(b)[i]) || (Encode(b)[i] == '=' && i >= |Encode(b)| - 2)
    decreases |b|
  {
    if |b| > 3 {
      EncodeAlphabet(b[3..]);
      var s := Encode(b);
      assert forall i :: 4 <= i < |s| ==> s[i] == Encode(b[3..])[i - 4];
    }
  }

  /** Test vectors of section 10 of RFC 4648: "fo" with one padding character. */
  lemma TestVectorTwoBytes()
    ensures Encode([0x66, 0x6f]) == "Zm8="
  {
    assert Symbol(25) == 'Z' && Symbol(38) == 'm' && Symbol(60) == '8';
  }

  /** Test vectors of section 10 of RFC 4648: "foob", a full quantum and one padded byte. */
  lemma TestVectorFourBytes()
    ensures Encode([0x66, 0x6f, 0x6f, 0x62]) == "Zm9vYg=="
  {
    var b: seq<byte> := [0x66, 0x6f, 0x6f, 0x62];
    assert b[..3] == [0x66, 0x6f, 0x6f] && b[3..] == [0x62];
    FooGroup();
    BGroup();
  }

  lemma FooGroup()
    ensures EncodeGroup([0x66, 0x6f, 0x6f]) == "Zm9v"
  {
    assert Symbol(25) == 'Z' && Symbol(38) == 'm' && Symbol(61) == '9' && Symbol(47) == 'v';
  }

  lemma BGroup()
    ensures EncodeGroup([0x62]) == "Yg=="
  {
    assert Symbol(24) == 'Y' && Symbol(32) == 'g';
  }
}

=== FILE: extract.dfy ===
/** The text clean-up and head/tail truncation `extract_job_description` applies to the page text
    before handing it to the completion model (backend/app.py:215-221). */
module Extract {
  import opened Text

  /** Longest text passed on unchanged. */
  const MaxChars: nat := 12000
  /** Characters kept from each end of a longer text. */
  const KeepChars: nat := 6000
  /** Marker placed between the kept head and tail. */
  const Marker: string := " ... "

  /** `re.sub(r'\s+', ' ', text).strip()`. */
  function Normalize(s: string): (r: string)
    ensures r == JoinSpaces(Words(s))
    ensures Trimmed(r) && NoSpaceRuns(r) && OnlyPlainSpaces(r)
    ensures Visible(r) == Visible(s)
    ensures |r| <= |s|
  {
    NormalizeIsJoinOfWords(s);
    CollapseShape(s);
    CollapseKeepsVisible(s);
    StripKeepsShape(Collapse(s));
    StripKeepsVisible(Collapse(s));
    Strip(Collapse(s))
  }

  /** A text longer than `MaxChars` keeps its first and last `KeepChars` characters around `Marker`. */
  function Truncate(s: string): (r: string)
    ensures |s| <= MaxChars ==> r == s
    ensures |s| > MaxChars ==> |r| == 2 * KeepChars + |Marker|
    ensures |r| <= MaxChars + |Marker|
  {
    if |s| > MaxChars then s[..KeepChars] + Marker + s[|s| - KeepChars..] else s
  }

  /** The text `extract_job_description` sends to the completion model. */
  function JobText(raw: string): (r: string)
    ensures |r| <= MaxChars + |Marker|
    ensures Trimmed(r) && OnlyPlainSpaces(r)
    ensures |Normalize(raw)| <= MaxChars ==> r == JoinSpaces(Words(raw))
  {
    TruncateKeepsEnds(Normalize(raw));
    Truncate(Normalize(raw))
  }

  // ----- Lemmas -----

  /** Stripping keeps a contiguous middle part, so it keeps the run-free shape. */
  lemma StripKeepsShape(x: string)
    ensures NoSpaceRuns(x) ==> NoSpaceRuns(Strip(x))
    ensures OnlyPlainSpaces(x) ==> OnlyPlainSpaces(Strip(x))
  {
    var a := StripIsSlice(x);
    SliceKeepsShape(x, a, a + |Strip(x)|);
  }

  /** `Strip(x)` is `x[a..a + |Strip(x)|]` for the returned offset `a`. */
  lemma StripIsSlice(x: string) returns (a: nat)
    ensures a + |Strip(x)| <= |x| && Strip(x) == x[a..a + |Strip(x)|]
  {
    var l := LStrip(x);
    a := |x| - |l|;
    var r := RStrip(l);
    assert l == x[a..];
    assert r == l[..|r|];
  }

  lemma SliceKeepsShape(x: string, a: nat, b: nat)
    requires a <= b <= |x|
    ensures NoSpaceRuns(x) ==> NoSpaceRuns(x[a..b])
    ensures OnlyPlainSpaces(x) ==> OnlyPlainSpaces(x[a..b])
  {
    assert forall i :: 0 <= i < b - a ==> x[a..b][i] == x[a + i];
  }

  lemma StripKeepsVisible(x: string)
    ensures Visible(Strip(x)) == Visible(x)
  {
    VisibleSkipsLeadingSpace(x);
    RStripKeepsVisible(LStrip(x));
  }

  lemma {:induction false} RStripKeepsVisible(x: string)
    ensures Visible(RStrip(x)) == Visible(x)
    decreases |x|
  {
    if x != [] && IsSpace(x[|x| - 1]) {
      var init := x[..|x| - 1];
      assert x == init + [x[|x| - 1]];
      VisibleConcat(init, [x[|x| - 1]]);
      RStripKeepsVisible(init);
    }
  }

  lemma {:induction false} VisibleConcat(a: string, b: string)
    ensures Visible(a + b) == Visible(a) + Visible(b)
    decreases |a|
  {
    if a != [] {
      assert (a + b)[1..] == a[1..] + b;
      VisibleConcat(a[1..], b);
    } else {
      assert a + b == b;
    }
  }

  lemma {:induction false} VisibleOfBlank(a: string)
    requires AllSpace(a)
    ensures Visible(a) == []
    decreases |a|
  {
    if a != [] {
      VisibleOfBlank(a[1..]);
    }
  }

  /** Each character of a truncated text comes from the head of the input, the marker, or the tail
      of the input, in that order. */
  lemma TruncateIsHeadMarkerTail(s: string)
    requires |s| > MaxChars
    ensures var r := Truncate(s);
      && (forall i :: 0 <= i < KeepChars ==> r[i] == s[i])
      && r[KeepChars..KeepChars + |Marker|] == Marker
      && (forall j :: KeepChars + |Marker| <= j < |r| ==> r[j] == s[|s| - |r| + j])
  {
  }

  /** Truncation keeps the text's first and last characters and introduces no whitespace other
      than plain spaces. */
  lemma TruncateKeepsEnds(s: string)
    requires Trimmed(s) && OnlyPlainSpaces(s)
    ensures Trimmed(Truncate(s)) && OnlyPlainSpaces(Truncate(s))
  {
    if |s| > MaxChars {
      var r := Truncate(s);
      assert r[0] == s[0];
      assert r[|r| - 1] == s[|s| - 1];
      assert forall i :: 0 <= i < |r| ==>
        r[i] == (if i < KeepChars then s[i]
                 else if i < KeepChars + |Marker| then Marker[i - KeepChars]
                 else s[|s| - KeepChars + (i - KeepChars - |Marker|)]);
    }
  }

  /** A normalised text one character over 12000 comes out at 12005 characters, longer than the
      threshold that triggers truncation, and truncation can put two spaces side by side when the
      head ends in a space. */
  lemma TruncationExceedsBoundAndMayJoinSpaces()
    ensures exists s: string ::
      && Trimmed(s) && NoSpaceRuns(s) && OnlyPlainSpaces(s)
      && |Truncate(s)| > MaxChars
      && !NoSpaceRuns(Truncate(s))
  {
    var s := seq(MaxChars + 1, i => if i == KeepChars - 1 then ' ' else 'a');
    assert !IsSpace('a');
    assert forall i :: 0 <= i < |s| && i != KeepChars - 1 ==> !IsSpace(s[i]);
    var r := Truncate(s);
    assert r[KeepChars - 1] == ' ' && r[KeepChars] == ' ';
    assert IsSpace(' ');
  }
}

=== FILE: fetch.dfy ===
/** `fetch_web_content` (backend/app.py:33-156): the URL guard and the bounded retry loop, run
    against an abstract network. `net(k)` is what the k-th `requests.get` call (counting from 0)
    produces; the page text BeautifulSoup extracts from a 200 response is part of that outcome. */
module Fetch {
  import opened Wrappers
  import Text
  import Url

  const MaxRetries: nat := 3
  /** Seconds passed to `requests.get` as `timeout`. */
  const TimeoutSeconds: nat := 15
  /** Seconds slept between attempts. */
  const RetryDelaySeconds: nat := 2

  const InvalidUrlError: string := "Invalid URL format. Please provide a complete URL including http:// or https://"
  const UrlParseError: string := "URL parsing error"
  const TimeoutError: string := "Request timed out"
  const RedirectError: string := "Too many redirects"
  const UnknownError: string := "Unknown error occurred"

  function HttpError(code: int): string {
    "HTTP error: " + Text.IntToString(code)
  }

  function RequestError(message: string): string {
    "Request error: " + message
  }

  /** What a completed HTTP exchange hands back: the status, the raw body, the text BeautifulSoup
      extracts from it with scripts and styles removed, the `<title>` string, and the final URL. */
  datatype Response = Response(statusCode: int, html: string, pageText: string, title: Option<string>, finalUrl: string)

  /** One attempt's outcome: a response, or one of the three exception kinds the loop tells apart. */
  datatype Outcome =
    | Answered(response: Response)
    | TimedOut
    | TooManyRedirects
    | RequestFailed(message: string)

  /** The returned dictionary. `Fetched` is the `success: True` shape; `Failed` carries `error` and,
      for an HTTP error, `status_code`. */
  datatype FetchResult =
    | Fetched(html: string, text: string, title: Option<string>, statusCode: int, url: string)
    | Failed(error: string, errorStatus: Option<int>)
  {
    predicate Success() { Fetched? }
  }

  /** A result together with how many `requests.get` calls produced it. */
  datatype Run = Run(result: FetchResult, attempts: nat)

  /** `re.sub(r'\n+', '\n', re.sub(r'\s+', ' ', text)).strip()` on the extracted page text. */
  function CleanPageText(text: string): string {
    Text.Strip(Text.SqueezeNewlines(Text.Collapse(text)))
  }

  /** The guard: `urlparse` must succeed and yield both a scheme and a network location. */
  function CheckUrl(url: string): Option<FetchResult> {
    match Url.UrlSplit(url)
    case Err(_) => Some(Failed(UrlParseError, None))
    case Ok(parts) =>
      if parts.scheme == [] || parts.netloc == [] then Some(Failed(InvalidUrlError, None)) else None
  }

  predicate IsLast(attempt: nat) {
    attempt == MaxRetries - 1
  }

  /** The loop body from attempt `attempt` on; past the last attempt the trailing fallback. */
  function Attempt(net: nat -> Outcome, attempt: nat): (run: Run)
    ensures run.attempts <= MaxRetries
    ensures attempt < MaxRetries ==> run.attempts > attempt
    decreases MaxRetries - attempt
  {
    if attempt >= MaxRetries then Run(Failed(UnknownError, None), MaxRetries)
    else match net(attempt)
      case Answered(resp) =>
        if resp.statusCode == 200 then
          Run(Fetched(resp.html, CleanPageText(resp.pageText), resp.title, resp.statusCode, resp.finalUrl), attempt + 1)
        else if IsLast(attempt) then Run(Failed(HttpError(resp.statusCode), Some(resp.statusCode)), attempt + 1)
        else Attempt(net, attempt + 1)
      case TimedOut =>
        if IsLast(attempt) then Run(Failed(TimeoutError, None), attempt + 1) else Attempt(net, attempt + 1)
      case TooManyRedirects =>
        Run(Failed(RedirectError, None), attempt + 1)
      case RequestFailed(message) =>
        if IsLast(attempt) then Run(Failed(RequestError(message), None), attempt + 1) else Attempt(net, attempt + 1)
  }

  /** `fetch_web_content(url)`. */
  function FetchWebContent(url: string, net: nat -> Outcome): (run: Run)
    ensures run.attempts <= MaxRetries
    ensures run.attempts == 0 <==> CheckUrl(url).Some?
  {
    match CheckUrl(url)
    case Some(failure) => Run(failure, 0)
    case None => Attempt(net, 0)
  }

  // ----- Reference: the first decisive attempt -----

  /** An outcome ends the loop when it is a 200, a redirect loop, or comes on the last attempt. */
  predicate Decisive(o: Outcome, attempt: nat) {
    (o.Answered? && o.response.statusCode == 200) || o.TooManyRedirects? || IsLast(attempt)
  }

  /** The index of the first decisive attempt at or after `from`. */
  function StopIndex(net: nat -> Outcome, from: nat): (k: nat)
    requires from < MaxRetries
    ensures from <= k < MaxRetries && Decisive(net(k), k)
    ensures forall j :: from <= j < k ==> !Decisive(net(j), j)
    decreases MaxRetries - from
  {
    if Decisive(net(from), from) then from else StopIndex(net, from + 1)
  }

  /** The result a decisive outcome produces. */
  function Verdict(o: Outcome): FetchResult {
    match o
    case Answered(resp) =>
      if resp.statusCode == 200 then Fetched(resp.html, CleanPageText(resp.pageText), resp.title, 200, resp.finalUrl)
      else Failed(HttpError(resp.statusCode), Some(resp.statusCode))
    case TimedOut => Failed(TimeoutError, None)
    case TooManyRedirects => Failed(RedirectError, None)
    case RequestFailed(message) => Failed(RequestError(message), None)
  }

  // ----- Lemmas -----

  /** The loop stops at the first decisive attempt and returns that attempt's verdict; every earlier
      attempt was retried. */
  lemma {:induction false} AttemptStopsAtFirstDecisive(net: nat -> Outcome, from: nat)
    requires from < MaxRetries
    ensures Attempt(net, from) == Run(Verdict(net(StopIndex(net, from))), StopIndex(net, from) + 1)
    decreases MaxRetries - from
  {
    if Decisive(net(from), from) {
      DecisiveAttemptStops(net, from);
    } else {
      RetriedAttemptContinues(net, from);
      AttemptStopsAtFirstDecisive(net, from + 1);
    }
  }

  lemma DecisiveAttemptStops(net: nat -> Outcome, from: nat)
    requires from < MaxRetries && Decisive(net(from), from)
    ensures Attempt(net, from) == Run(Verdict(net(from)), from + 1)
  {
  }

  lemma RetriedAttemptContinues(net: nat -> Outcome, from: nat)
    requires from < MaxRetries && !Decisive(net(from), from)
    ensures from + 1 < MaxRetries
    ensures Attempt(net, from) == Attempt(net, from + 1)
  {
  }

  /** A URL that passes the guard runs the retry loop from the first attempt. */
  lemma FetchRunsLoop(url: string, net: nat -> Outcome)
    requires CheckUrl(url).None?
    ensures FetchWebContent(url, net) == Run(Verdict(net(StopIndex(net, 0))), StopIndex(net, 0) + 1)
  {
    AttemptStopsAtFirstDecisive(net, 0);
  }

  /** A URL that fails the guard costs no request; one that passes costs between one and three. */
  lemma GuardedUrlMakesNoRequest(url: string, net: nat -> Outcome)
    ensures var run := FetchWebContent(url, net);
      && (CheckUrl(url).Some? ==> run == Run(CheckUrl(url).value, 0) && !run.result.Success())
      && (CheckUrl(url).None? ==> 1 <= run.attempts <= MaxRetries)
  {
  }

  /** A URL whose parsed scheme or network location is empty gets the "Invalid URL format" error
      without any request. */
  lemma MissingSchemeOrHostRejected(url: string, net: nat -> Outcome)
    requires Url.UrlSplit(url).Ok?
    requires Url.UrlSplit(url).value.scheme == [] || Url.UrlSplit(url).value.netloc == []
    ensures FetchWebContent(url, net) == Run(Failed(InvalidUrlError, None), 0)
  {
  }

  lemma StopIndexIsFirst(net: nat -> Outcome, k: nat)
    requires k < MaxRetries && Decisive(net(k), k)
    requires forall j :: 0 <= j < k ==> !Decisive(net(j), j)
    ensures StopIndex(net, 0) == k
  {
  }

  /** The first attempt that answers 200 ends the loop with success; later outcomes are never
      requested. */
  lemma FirstOkWins(url: string, net: nat -> Outcome, k: nat)
    requires CheckUrl(url).None?
    requires k < MaxRetries && net(k).Answered? && net(k).response.statusCode == 200
    requires forall j :: 0 <= j < k ==> !Decisive(net(j), j)
    ensures FetchWebContent(url, net).attempts == k + 1
    ensures FetchWebContent(url, net).result.Success()
    ensures FetchWebContent(url, net).result.statusCode == 200
  {
    FetchRunsLoop(url, net);
    StopIndexIsFirst(net, k);
  }

  /** A redirect loop fails on the same attempt, whatever its index: it is never retried. */
  lemma RedirectLoopNotRetried(url: string, net: nat -> Outcome, k: nat)
    requires CheckUrl(url).None?
    requires k < MaxRetries && net(k).TooManyRedirects?
    requires forall j :: 0 <= j < k ==> !Decisive(net(j), j)
    ensures FetchWebContent(url, net) == Run(Failed(RedirectError, None), k + 1)
  {
    FetchRunsLoop(url, net);
    StopIndexIsFirst(net, k);
  }

  /** Three non-200 answers fail with the third answer's status code. */
  lemma ThreeHttpErrors(url: string, net: nat -> Outcome)
    requires CheckUrl(url).None?
    requires forall j :: 0 <= j < MaxRetries ==> net(j).Answered? && net(j).response.statusCode != 200
    ensures var code := net(2).response.statusCode;
      FetchWebContent(url, net) == Run(Failed(HttpError(code), Some(code)), 3)
  {
    FetchRunsLoop(url, net);
    assert !Decisive(net(0), 0) && !Decisive(net(1), 1);
    StopIndexIsFirst(net, 2);
  }

  /** When the first two attempts are retried, the last attempt's timeout or request error gives its
      own message. */
  lemma LastAttemptErrors(url: string, net: nat -> Outcome)
    requires CheckUrl(url).None?
    requires !Decisive(net(0), 0) && !Decisive(net(1), 1)
    ensures net(2).TimedOut? ==> FetchWebContent(url, net) == Run(Failed(TimeoutError, None), 3)
    ensures net(2).RequestFailed? ==>
      FetchWebContent(url, net) == Run(Failed(RequestError(net(2).message), None), 3)
  {
    FetchRunsLoop(url, net);
    StopIndexIsFirst(net, 2);
  }

  /** The trailing "Unknown error occurred" return is dead code: every outcome of the last attempt
      returns inside the loop. */
  lemma UnknownErrorUnreachable(url: string, net: nat -> Outcome)
    ensures FetchWebContent(url, net).result != Failed(UnknownError, None)
  {
    if CheckUrl(url).None? {
      FetchRunsLoop(url, net);
      VerdictIsNeverUnknown(net(StopIndex(net, 0)));
    }
  }

  lemma VerdictIsNeverUnknown(o: Outcome)
    ensures Verdict(o) != Failed(UnknownError, None)
  {
    if o.RequestFailed? {
      assert RequestError(o.message)[0] == 'R';
    }
  }

  /** A successful fetch carries the page text cleaned to single plain spaces, without leading or
      trailing whitespace: its words joined by single spaces. */
  lemma SuccessTextIsNormalized(url: string, net: nat -> Outcome)
    requires FetchWebContent(url, net).result.Success()
    ensures var t := FetchWebContent(url, net).result.text;
      && Text.Trimmed(t) && Text.NoSpaceRuns(t) && Text.OnlyPlainSpaces(t)
  {
    FetchRunsLoop(url, net);
    VerdictText(net(StopIndex(net, 0)));
  }

  /** A 200 verdict's text is the response's page text, its words joined by single spaces. */
  lemma VerdictText(o: Outcome)
    requires Verdict(o).Fetched?
    ensures o.Answered? && Verdict(o).text == Text.JoinSpaces(Text.Words(o.response.pageText))
    ensures Text.Trimmed(Verdict(o).text)
    ensures Text.NoSpaceRuns(Verdict(o).text) && Text.OnlyPlainSpaces(Verdict(o).text)
  {
    CleanPageTextShape(o.response.pageText);
  }

  lemma CleanPageTextShape(text: string)
    ensures CleanPageText(text) == Text.JoinSpaces(Text.Words(text))
    ensures Text.Trimmed(CleanPageText(text))
    ensures Text.NoSpaceRuns(CleanPageText(text)) && Text.OnlyPlainSpaces(CleanPageText(text))
  {
    var c := Text.Collapse(text);
    Text.CollapseShape(text);
    assert forall i :: 0 <= i < |c| ==> c[i] != '\n' by {
      assert Text.IsSpace('\n');
    }
    SqueezeWithoutNewlines(c);
    Text.NormalizeIsJoinOfWords(text);
    Text.WordsAreValid(text);
    Text.JoinTrimmed(Text.Words(text));
    JoinShape(Text.Words(text));
  }

  /** With no newline present, collapsing newline runs changes nothing. */
  lemma {:induction false} SqueezeWithoutNewlines(s: string)
    requires forall i :: 0 <= i < |s| ==> s[i] != '\n'
    ensures Text.SqueezeNewlines(s) == s
    decreases |s|
  {
    if s != [] {
      SqueezeWithoutNewlines(s[1..]);
    }
  }

  /** Words joined by single spaces contain no other whitespace and no two spaces in a row. */
  lemma {:induction false} JoinShape(ws: seq<string>)
    requires Text.ValidWords(ws)
    ensures Text.NoSpaceRuns(Text.JoinSpaces(ws)) && Text.OnlyPlainSpaces(Text.JoinSpaces(ws))
  {
    if |ws| > 1 {
      JoinShape(ws[1..]);
      Text.JoinTrimmed(ws[1..]);
      var w := ws[0];
      var t := Text.JoinSpaces(ws[1..]);
      var j := w + " " + t;
      assert forall i :: 0 <= i < |j| ==>
        j[i] == (if i < |w| then w[i] else if i == |w| then ' ' else t[i - |w| - 1]);
    }
  }

  /** "not-a-url" has neither scheme nor host, so it is rejected without a request. */
  lemma RejectsBareWord(net: nat -> Outcome)
    ensures FetchWebContent("not-a-url", net) == Run(Failed(InvalidUrlError, None), 0)
  {
    Url.NoSlashNoNetloc("not-a-url");
  }

  /** A full https URL passes the guard, so the loop runs. */
  lemma AcceptsHttpsUrl()
    ensures CheckUrl("https://example.com/careers/123").None?
  {
    var url := "https://example.com/careers/123";
    var host := "example.com";
    HostIsPlain(host);
    SchemeAndPathArePlain("https", "/careers/123");
    Url.SplitOfComposed("https", host, "/careers/123");
    ExampleUrlPieces(url);
    var parts := Url.SplitUrl(Url.AsciiLower("https"), host, "/careers/123");
    assert Url.UrlSplit(url) == Ok(parts);
    assert parts.scheme != [] && parts.netloc != [];
  }

  lemma ExampleUrlPieces(url: string)
    requires url == "https://example.com/careers/123"
    ensures url == "https" + "://" + "example.com" + "/careers/123"
  {
  }

  lemma SchemeAndPathArePlain(scheme: string, path: string)
    requires scheme == "https" && path == "/careers/123"
    ensures scheme != [] && Url.IsAsciiLetter(scheme[0]) && Url.AllSchemeChars(scheme)
    ensures path == [] || path[0] in Url.NetlocDelimiters
    ensures Url.NoUnsafe(path)
  {
  }

  lemma HostIsPlain(host: string)
    requires host == "example.com"
    ensures forall i :: 0 <= i < |host| ==>
      host[i] !in Url.NetlocDelimiters && host[i] !in "[]" && !Url.IsUnsafe(host[i])
  {
  }
}

=== FILE: json.dfy ===
/** JSON values as `json.loads` produces them and `jsonify` consumes them. Numbers are kept as
    integers: no float reaches any decision the model makes. */
module Json {
  import opened Wrappers

  datatype Json =
    | JNull
    | JBool(b: bool)
    | JNum(n: int)
    | JStr(s: string)
    | JArr(items: seq<Json>)
    | JObj(fields: map<string, Json>)

  /** Python truthiness of the decoded value: `None`, `False`, `0`, `""`, `[]` and `{}` are false. */
  predicate Truthy(j: Json) {
    match j
    case JNull => false
    case JBool(b) => b
    case JNum(n) => n != 0
    case JStr(s) => s != []
    case JArr(items) => items != []
    case JObj(fields) => fields != map[]
  }

  /** `d.get(key)` on a decoded object. */
  function Get(fields: map<string, Json>, key: string): (r: Option<Json>)
    ensures r.Some? <==> key in fields
    ensures r.Some? ==> r.value == fields[key]
  {
    if key in fields then Some(fields[key]) else None
  }

  /** A list of strings as `jsonify` writes it. */
  function Strings(ss: seq<string>): (r: Json)
    ensures r.JArr? && |r.items| == |ss|
    ensures forall i :: 0 <= i < |ss| ==> r.items[i] == JStr(ss[i])
  {
    JArr(seq(|ss|, i requires 0 <= i < |ss| => JStr(ss[i])))
  }

  /** An optional string: `None` becomes `null`. */
  function OptString(o: Option<string>): (r: Json)
    ensures r == JNull <==> o.None?
    ensures o.Some? ==> r == JStr(o.value)
  {
    match o
    case None => JNull
    case Some(s) => JStr(s)
  }

  /** An optional list of strings: `None` becomes `null`. */
  function OptStrings(o: Option<seq<string>>): (r: Json)
    ensures r == JNull <==> o.None?
    ensures o.Some? ==> r == Strings(o.value)
  {
    match o
    case None => JNull
    case Some(ss) => Strings(ss)
  }
}

=== FILE: metrics.dfy ===
/** The bookkeeping of backend/metrics.py: the pricing lookup, the integer counters that
    `track_openai_usage` raises, and the request counter of `MetricsMiddleware`. A counter is a
    map from its label tuple to its value; a label tuple that was never incremented reads 0. */
module Metrics {
  import opened Wrappers

  /** Dollars per million tokens. */
  datatype Pricing = Pricing(input: real, output: real)

  const ModelPricing: map<string, Pricing> := map[
    "gpt-4o-mini" := Pricing(0.15, 0.60),
    "gpt-3.5-turbo" := Pricing(0.50, 1.50),
    "gpt-4o" := Pricing(2.50, 10.00)]

  const DefaultPricing: Pricing := Pricing(2.50, 10.00)

  /** `MODEL_PRICING.get(model_name, DEFAULT_PRICING)`. */
  function PricingFor(model: string): Pricing {
    if model in ModelPricing then ModelPricing[model] else DefaultPricing
  }

  /** The three listed models get their own rates; any other name gets the default. */
  lemma PricingLookup(model: string)
    ensures model == "gpt-4o-mini" ==> PricingFor(model) == Pricing(0.15, 0.60)
    ensures model == "gpt-3.5-turbo" ==> PricingFor(model) == Pricing(0.50, 1.50)
    ensures model == "gpt-4o" ==> PricingFor(model) == Pricing(2.50, 10.00)
    ensures model !in {"gpt-4o-mini", "gpt-3.5-turbo", "gpt-4o"} ==> PricingFor(model) == DefaultPricing
  {
  }

  // ---------------------------------------------------------------- counters

  type Counter<K(!new)> = map<K, nat>

  function Value<K(!new)>(c: Counter<K>, key: K): nat {
    if key in c then c[key] else 0
  }

  function Inc<K(!new)>(c: Counter<K>, key: K, amount: nat): (r: Counter<K>)
    ensures Value(r, key) == Value(c, key) + amount
    ensures forall k :: k != key ==> Value(r, k) == Value(c, k)
  {
    c[key := Value(c, key) + amount]
  }

  /** The integer-valued counters: tokens by (model, type), calls by (model, endpoint), and
      requests by (endpoint, verb, status). */
  datatype Registry = Registry(
    tokens: Counter<(string, string)>,
    calls: Counter<(string, string)>,
    requests: Counter<(string, string, string)>)

  const CounterError: string := "Counters can only be incremented by non-negative amounts."

  /** `track_openai_usage` without the cost counter. `Counter.inc` raises on a negative amount,
      and the increments before it stay applied: the result is the registry afterwards and the
      error raised, if any. */
  function TrackUsage(reg: Registry, model: string, inputTokens: int, outputTokens: int)
    : (r: (Registry, Option<string>))
  {
    if inputTokens < 0 then (reg, Some(CounterError))
    else
      var afterInput := reg.(tokens := Inc(reg.tokens, (model, "input"), inputTokens));
      if outputTokens < 0 then (afterInput, Some(CounterError))
      else
        var afterOutput := afterInput.(tokens := Inc(afterInput.tokens, (model, "output"), outputTokens));
        (afterOutput.(calls := Inc(afterOutput.calls, (model, "output"), 1)), None)
  }

  /** With non-negative counts, the input and output token counters of `model` rise by exactly
      the counts, its `output` call counter by one, and nothing else changes. */
  lemma TrackUsageExact(reg: Registry, model: string, inputTokens: nat, outputTokens: nat)
    ensures var (after, err) := TrackUsage(reg, model, inputTokens, outputTokens);
      && err.None?
      && Value(after.tokens, (model, "input")) == Value(reg.tokens, (model, "input")) + inputTokens
      && Value(after.tokens, (model, "output")) == Value(reg.tokens, (model, "output")) + outputTokens
      && Value(after.calls, (model, "output")) == Value(reg.calls, (model, "output")) + 1
      && (forall k :: k != (model, "input") && k != (model, "output") ==> Value(after.tokens, k) == Value(reg.tokens, k))
      && (forall k :: k != (model, "output") ==> Value(after.calls, k) == Value(reg.calls, k))
      && after.requests == reg.requests
  {
  }

  /** A negative input count raises before anything is counted; a negative output count raises
      after the input tokens were counted. */
  lemma TrackUsageNegative(reg: Registry, model: string, inputTokens: int, outputTokens: int)
    requires inputTokens < 0 || outputTokens < 0
    ensures TrackUsage(reg, model, inputTokens, outputTokens).1 == Some(CounterError)
    ensures inputTokens < 0 ==> TrackUsage(reg, model, inputTokens, outputTokens).0 == reg
    ensures inputTokens >= 0 ==>
      TrackUsage(reg, model, inputTokens, outputTokens).0.tokens == Inc(reg.tokens, (model, "input"), inputTokens)
    ensures TrackUsage(reg, model, inputTokens, outputTokens).0.calls == reg.calls
  {
  }

  /** Two calls count the same tokens as one call with the summed counts, and two calls. */
  lemma TrackUsageAdds(reg: Registry, model: string, in1: nat, out1: nat, in2: nat, out2: nat)
    ensures var twice := TrackUsage(TrackUsage(reg, model, in1, out1).0, model, in2, out2).0;
      var once := TrackUsage(reg, model, in1 + in2, out1 + out2).0;
      && twice.tokens == once.tokens
      && Value(twice.calls, (model, "output")) == Value(once.calls, (model, "output")) + 1
  {
    var t, i, o := reg.tokens, (model, "input"), (model, "output");
    IncSwap(Inc(t, i, in1), o, out1, i, in2);
    IncTwice(t, i, in1, in2);
    IncTwice(Inc(t, i, in1 + in2), o, out1, out2);
  }

  lemma IncTwice<K(!new)>(c: Counter<K>, key: K, a: nat, b: nat)
    ensures Inc(Inc(c, key, a), key, b) == Inc(c, key, a + b)
  {
  }

  lemma IncSwap<K(!new)>(c: Counter<K>, k1: K, a: nat, k2: K, b: nat)
    requires k1 != k2
    ensures Inc(Inc(c, k1, a), k2, b) == Inc(Inc(c, k2, b), k1, a)
  {
  }

  // ---------------------------------------------------------------- middleware

  const MetricsPath: string := "/metrics"

  /** `status.split(' ')[0]`: the status line up to its first space. */
  function StatusCode(status: string): (code: string)
    ensures ' ' !in code
    ensures |code| <= |status| && code == status[..|code|]
    ensures |code| < |status| ==> status[|code|] == ' '
  {
    if status == [] || status[0] == ' ' then []
    else [status[0]] + StatusCode(status[1..])
  }

  /** A status line `code + " " + reason` is recorded under `code`. */
  lemma StatusCodeOfLine(code: string, reason: string)
    requires ' ' !in code
    ensures StatusCode(code + " " + reason) == code
  {
    var line := code + " " + reason;
    assert line[..|code|] == code && line[|code|] == ' ';
  }

  /** `environ.get(key, '')`. */
  function EnvGet(environ: map<string, string>, key: string): string {
    if key in environ then environ[key] else ""
  }

  /** One request through the middleware; `statuses` are the status lines the wrapped
      application passes to `start_response`, in order. Durations are not modelled. */
  function Middleware(reg: Registry, environ: map<string, string>, statuses: seq<string>): Registry
    decreases |statuses|
  {
    var path := EnvGet(environ, "PATH_INFO");
    var verb := EnvGet(environ, "REQUEST_METHOD");
    if path == MetricsPath || statuses == [] then reg
    else
      var key := (path, verb, StatusCode(statuses[0]));
      Middleware(reg.(requests := Inc(reg.requests, key, 1)), environ, statuses[1..])
  }

  /** How many of the status lines carry status `code`. */
  function CountCode(statuses: seq<string>, code: string): nat {
    if statuses == [] then 0
    else (if StatusCode(statuses[0]) == code then 1 else 0) + CountCode(statuses[1..], code)
  }

  /** The `/metrics` endpoint passes through uncounted. */
  lemma MetricsPathSkipped(reg: Registry, environ: map<string, string>, statuses: seq<string>)
    requires EnvGet(environ, "PATH_INFO") == MetricsPath
    ensures Middleware(reg, environ, statuses) == reg
  {
  }

  /** For any other path, the `(path, verb, code)` counter rises by one per response start
      with that code; counters of other paths and methods, and the token and call counters, do
      not move. */
  lemma {:induction false} RequestsCounted(reg: Registry, environ: map<string, string>, statuses: seq<string>,
                                           code: string)
    requires EnvGet(environ, "PATH_INFO") != MetricsPath
    ensures var path, verb := EnvGet(environ, "PATH_INFO"), EnvGet(environ, "REQUEST_METHOD");
      var after := Middleware(reg, environ, statuses);
      && Value(after.requests, (path, verb, code)) == Value(reg.requests, (path, verb, code)) + CountCode(statuses, code)
      && (forall k: (string, string, string) :: k.0 != path || k.1 != verb ==> Value(after.requests, k) == Value(reg.requests, k))
      && after.tokens == reg.tokens && after.calls == reg.calls
    decreases |statuses|
  {
    if statuses != [] {
      var key := (EnvGet(environ, "PATH_INFO"), EnvGet(environ, "REQUEST_METHOD"), StatusCode(statuses[0]));
      RequestsCounted(reg.(requests := Inc(reg.requests, key, 1)), environ, statuses[1..], code);
    }
  }
}

=== FILE: records.dfy ===
/** The pydantic record shapes of backend/app.py:273-338, with `model_dump` (record to JSON
    object) and `model_validate` (JSON value to record, or the first validation error). */
module Records {
  import opened Wrappers
  import opened Json

  const FieldRequired: string := "Field required"
  const StringType: string := "Input should be a valid string"
  const ListType: string := "Input should be a valid list"
  const DictType: string := "Input should be a valid dictionary"

  datatype RequiredSkills = RequiredSkills(
    technical: seq<string>, soft: seq<string>, education: seq<string>, experience: seq<string>)

  datatype JobSkills = JobSkills(
    jobTitle: string,
    company: Option<string>,
    salary: Option<string>,
    requiredSkills: RequiredSkills,
    preferredSkills: Option<seq<string>>,
    benefits: Option<seq<string>>,
    location: Option<string>)

  datatype CompanyResearch = CompanyResearch(
    overview: string, culture: Option<string>, process: Option<string>, news: Option<string>)

  datatype InterviewQuestion = InterviewQuestion(question: string, difficulty: string, answerTips: string)

  datatype PreparationTip = PreparationTip(title: string, description: string)

  datatype InterviewPrep = InterviewPrep(
    company: CompanyResearch,
    technical: seq<InterviewQuestion>,
    behavioral: seq<InterviewQuestion>,
    tips: seq<PreparationTip>)

  // ---------------------------------------------------------------- field validators

  function Str(j: Json): (r: Result<string>)
    ensures r.Ok? <==> j.JStr?
    ensures r.Ok? ==> j == JStr(r.value)
  {
    match j
    case JStr(s) => Ok(s)
    case _ => Err(StringType)
  }

  /** Every element must be a string; the first one that is not decides the error. */
  function StrItems(items: seq<Json>): (r: Result<seq<string>>)
    ensures r.Ok? ==> |r.value| == |items|
  {
    if items == [] then Ok([])
    else
      var head :- Str(items[0]);
      var tail :- StrItems(items[1..]);
      Ok([head] + tail)
  }

  function StrList(j: Json): (r: Result<seq<string>>)
    ensures !j.JArr? ==> r == Err(ListType)
  {
    match j
    case JArr(items) => StrItems(items)
    case _ => Err(ListType)
  }

  /** A field declared `str` with no default. */
  function RequiredStr(fields: map<string, Json>, key: string): (r: Result<string>)
    ensures key !in fields ==> r == Err(FieldRequired)
    ensures r.Ok? ==> key in fields && fields[key] == JStr(r.value)
  {
    if key in fields then Str(fields[key]) else Err(FieldRequired)
  }

  /** A field declared `Optional[str] = None`: absent and `null` both give `None`. */
  function OptionalStr(fields: map<string, Json>, key: string): (r: Result<Option<string>>)
    ensures key !in fields ==> r == Ok(None)
    ensures r.Ok? && r.value.Some? ==> key in fields && fields[key] == JStr(r.value.value)
  {
    if key !in fields || fields[key] == JNull then Ok(None)
    else
      var s :- Str(fields[key]);
      Ok(Some(s))
  }

  /** A field declared `List[str] = Field(default_factory=list)`: absent gives `[]`. */
  function DefaultStrList(fields: map<string, Json>, key: string): (r: Result<seq<string>>)
    ensures key !in fields ==> r == Ok([])
  {
    if key in fields then StrList(fields[key]) else Ok([])
  }

  /** A field declared `Optional[List[str]] = None`. */
  function OptionalStrList(fields: map<string, Json>, key: string): (r: Result<Option<seq<string>>>)
    ensures key !in fields ==> r == Ok(None)
  {
    if key !in fields || fields[key] == JNull then Ok(None)
    else
      var ss :- StrList(fields[key]);
      Ok(Some(ss))
  }

  // ---------------------------------------------------------------- model_dump

  function DumpRequiredSkills(s: RequiredSkills): Json {
    JObj(map[
      "technical_skills" := Strings(s.technical),
      "soft_skills" := Strings(s.soft),
      "education" := Strings(s.education),
      "experience" := Strings(s.experience)])
  }

  function DumpJobSkills(j: JobSkills): Json {
    JObj(map[
      "job_title" := JStr(j.jobTitle),
      "company" := OptString(j.company),
      "salary" := OptString(j.salary),
      "required_skills" := DumpRequiredSkills(j.requiredSkills),
      "preferred_skills" := OptStrings(j.preferredSkills),
      "benefits" := OptStrings(j.benefits),
      "location" := OptString(j.location)])
  }

  function DumpCompany(c: CompanyResearch): Json {
    JObj(map[
      "company_overview" := JStr(c.overview),
      "culture_and_values" := OptString(c.culture),
      "interview_process" := OptString(c.process),
      "recent_news" := OptString(c.news)])
  }

  function DumpQuestion(q: InterviewQuestion): Json {
    JObj(map["question" := JStr(q.question), "difficulty" := JStr(q.difficulty), "answer_tips" := JStr(q.answerTips)])
  }

  function DumpTip(t: PreparationTip): Json {
    JObj(map["title" := JStr(t.title), "description" := JStr(t.description)])
  }

  function DumpQuestions(qs: seq<InterviewQuestion>): (r: seq<Json>)
    ensures |r| == |qs|
  {
    seq(|qs|, i requires 0 <= i < |qs| => DumpQuestion(qs[i]))
  }

  function DumpTips(ts: seq<PreparationTip>): (r: seq<Json>)
    ensures |r| == |ts|
  {
    seq(|ts|, i requires 0 <= i < |ts| => DumpTip(ts[i]))
  }

  function DumpInterviewPrep(p: InterviewPrep): Json {
    JObj(map[
      "company_research" := DumpCompany(p.company),
      "technical_questions" := JArr(DumpQuestions(p.technical)),
      "behavioral_questions" := JArr(DumpQuestions(p.behavioral)),
      "preparation_tips" := JArr(DumpTips(p.tips))])
  }

  // ---------------------------------------------------------------- model_validate

  function LoadRequiredSkills(j: Json): (r: Result<RequiredSkills>)
    ensures !j.JObj? ==> r == Err(DictType)
    ensures j == JObj(map[]) ==> r == Ok(RequiredSkills([], [], [], []))
  {
    match j
    case JObj(f) =>
      var technical :- DefaultStrList(f, "technical_skills");
      var soft :- DefaultStrList(f, "soft_skills");
      var education :- DefaultStrList(f, "education");
      var experience :- DefaultStrList(f, "experience");
      Ok(RequiredSkills(technical, soft, education, experience))
    case _ => Err(DictType)
  }

  function LoadJobSkills(j: Json): (r: Result<JobSkills>)
    ensures !j.JObj? ==> r == Err(DictType)
    ensures j.JObj? && "job_title" !in j.fields ==> r == Err(FieldRequired)
    ensures r.Ok? ==> j.JObj? && "job_title" in j.fields && "required_skills" in j.fields
  {
    match j
    case JObj(f) =>
      var title :- RequiredStr(f, "job_title");
      var company :- OptionalStr(f, "company");
      var salary :- OptionalStr(f, "salary");
      var skills :- SkillsField(f, "required_skills");
      var preferred :- OptionalStrList(f, "preferred_skills");
      var benefits :- OptionalStrList(f, "benefits");
      var location :- OptionalStr(f, "location");
      Ok(JobSkills(title, company, salary, skills, preferred, benefits, location))
    case _ => Err(DictType)
  }

  function LoadCompany(j: Json): (r: Result<CompanyResearch>)
    ensures !j.JObj? ==> r == Err(DictType)
    ensures r.Ok? ==> j.JObj? && "company_overview" in j.fields
  {
    match j
    case JObj(f) =>
      var overview :- RequiredStr(f, "company_overview");
      var culture :- OptionalStr(f, "culture_and_values");
      var process :- OptionalStr(f, "interview_process");
      var news :- OptionalStr(f, "recent_news");
      Ok(CompanyResearch(overview, culture, process, news))
    case _ => Err(DictType)
  }

  /** `InterviewQuestion(**q)` on a mapping `q`: every field is required; extra keys are ignored. */
  function QuestionFrom(f: map<string, Json>): (r: Result<InterviewQuestion>)
    ensures r.Ok? <==> (forall k :: k in ["question", "difficulty", "answer_tips"] ==> k in f && f[k].JStr?)
  {
    var question :- RequiredStr(f, "question");
    var difficulty :- RequiredStr(f, "difficulty");
    var answerTips :- RequiredStr(f, "answer_tips");
    Ok(InterviewQuestion(question, difficulty, answerTips))
  }

  /** `PreparationTip(**t)` on a mapping `t`. */
  function TipFrom(f: map<string, Json>): (r: Result<PreparationTip>)
    ensures r.Ok? <==> (forall k :: k in ["title", "description"] ==> k in f && f[k].JStr?)
  {
    var title :- RequiredStr(f, "title");
    var description :- RequiredStr(f, "description");
    Ok(PreparationTip(title, description))
  }

  function LoadQuestion(j: Json): (r: Result<InterviewQuestion>)
    ensures !j.JObj? ==> r == Err(DictType)
  {
    match j
    case JObj(f) => QuestionFrom(f)
    case _ => Err(DictType)
  }

  function LoadTip(j: Json): (r: Result<PreparationTip>)
    ensures !j.JObj? ==> r == Err(DictType)
  {
    match j
    case JObj(f) => TipFrom(f)
    case _ => Err(DictType)
  }

  function LoadQuestions(items: seq<Json>): (r: Result<seq<InterviewQuestion>>)
    ensures r.Ok? ==> |r.value| == |items|
  {
    if items == [] then Ok([])
    else
      var head :- LoadQuestion(items[0]);
      var tail :- LoadQuestions(items[1..]);
      Ok([head] + tail)
  }

  function LoadTips(items: seq<Json>): (r: Result<seq<PreparationTip>>)
    ensures r.Ok? ==> |r.value| == |items|
  {
    if items == [] then Ok([])
    else
      var head :- LoadTip(items[0]);
      var tail :- LoadTips(items[1..]);
      Ok([head] + tail)
  }

  /** A required field holding one nested record. */
  function CompanyField(f: map<string, Json>, key: string): (r: Result<CompanyResearch>)
    ensures key !in f ==> r == Err(FieldRequired)
  {
    if key in f then LoadCompany(f[key]) else Err(FieldRequired)
  }

  /** A required field holding a list of questions. */
  function QuestionsField(f: map<string, Json>, key: string): (r: Result<seq<InterviewQuestion>>)
    ensures key !in f ==> r == Err(FieldRequired)
  {
    if key !in f then Err(FieldRequired)
    else match f[key]
      case JArr(items) => LoadQuestions(items)
      case _ => Err(ListType)
  }

  /** A required field holding a list of tips. */
  function TipsField(f: map<string, Json>, key: string): (r: Result<seq<PreparationTip>>)
    ensures key !in f ==> r == Err(FieldRequired)
  {
    if key !in f then Err(FieldRequired)
    else match f[key]
      case JArr(items) => LoadTips(items)
      case _ => Err(ListType)
  }

  /** A required field holding the nested skills record. */
  function SkillsField(f: map<string, Json>, key: string): (r: Result<RequiredSkills>)
    ensures key !in f ==> r == Err(FieldRequired)
  {
    if key in f then LoadRequiredSkills(f[key]) else Err(FieldRequired)
  }

  function LoadInterviewPrep(j: Json): (r: Result<InterviewPrep>)
    ensures !j.JObj? ==> r == Err(DictType)
  {
    match j
    case JObj(f) =>
      var company :- CompanyField(f, "company_research");
      var technical :- QuestionsField(f, "technical_questions");
      var behavioral :- QuestionsField(f, "behavioral_questions");
      var tips :- TipsField(f, "preparation_tips");
      Ok(InterviewPrep(company, technical, behavioral, tips))
    case _ => Err(DictType)
  }

  // ---------------------------------------------------------------- round trips

  lemma {:induction false} StrItemsOfStrings(ss: seq<string>)
    ensures StrItems(Strings(ss).items) == Ok(ss)
  {
    if ss != [] {
      StrItemsOfStrings(ss[1..]);
      assert Strings(ss).items[1..] == Strings(ss[1..]).items;
      assert [ss[0]] + ss[1..] == ss;
    }
  }

  lemma OptStringRoundTrip(o: Option<string>, key: string, f: map<string, Json>)
    requires key in f && f[key] == OptString(o)
    ensures OptionalStr(f, key) == Ok(o)
  {
  }

  lemma OptStringsRoundTrip(o: Option<seq<string>>, key: string, f: map<string, Json>)
    requires key in f && f[key] == OptStrings(o)
    ensures OptionalStrList(f, key) == Ok(o)
  {
    if o.Some? {
      StrItemsOfStrings(o.value);
    }
  }

  /** Validating a dumped `RequiredSkills` gives it back, empty lists included. */
  lemma RequiredSkillsRoundTrip(s: RequiredSkills)
    ensures LoadRequiredSkills(DumpRequiredSkills(s)) == Ok(s)
  {
    StrItemsOfStrings(s.technical);
    StrItemsOfStrings(s.soft);
    StrItemsOfStrings(s.education);
    StrItemsOfStrings(s.experience);
  }

  /** The job-skills record survives `model_dump` followed by validation, every field included. */
  lemma JobSkillsRoundTrip(j: JobSkills)
    ensures LoadJobSkills(DumpJobSkills(j)) == Ok(j)
  {
    var f := DumpJobSkills(j).fields;
    JobSkillsFields(j);
    RequiredSkillsRoundTrip(j.requiredSkills);
    OptStringRoundTrip(j.company, "company", f);
    OptStringRoundTrip(j.salary, "salary", f);
    OptStringRoundTrip(j.location, "location", f);
    OptStringsRoundTrip(j.preferredSkills, "preferred_skills", f);
    OptStringsRoundTrip(j.benefits, "benefits", f);
  }

  lemma JobSkillsFields(j: JobSkills)
    ensures var f := DumpJobSkills(j).fields;
      && f["job_title"] == JStr(j.jobTitle)
      && f["company"] == OptString(j.company)
      && f["salary"] == OptString(j.salary)
      && f["required_skills"] == DumpRequiredSkills(j.requiredSkills)
      && f["preferred_skills"] == OptStrings(j.preferredSkills)
      && f["benefits"] == OptStrings(j.benefits)
      && f["location"] == OptString(j.location)
  {
  }

  lemma CompanyRoundTrip(c: CompanyResearch)
    ensures LoadCompany(DumpCompany(c)) == Ok(c)
  {
    var f := DumpCompany(c).fields;
    OptStringRoundTrip(c.culture, "culture_and_values", f);
    OptStringRoundTrip(c.process, "interview_process", f);
    OptStringRoundTrip(c.news, "recent_news", f);
  }

  lemma {:induction false} QuestionsRoundTrip(qs: seq<InterviewQuestion>)
    ensures LoadQuestions(DumpQuestions(qs)) == Ok(qs)
  {
    if qs != [] {
      QuestionsRoundTrip(qs[1..]);
      assert DumpQuestions(qs)[1..] == DumpQuestions(qs[1..]);
      assert LoadQuestion(DumpQuestions(qs)[0]) == Ok(qs[0]);
      assert [qs[0]] + qs[1..] == qs;
    }
  }

  lemma {:induction false} TipsRoundTrip(ts: seq<PreparationTip>)
    ensures LoadTips(DumpTips(ts)) == Ok(ts)
  {
    if ts != [] {
      TipsRoundTrip(ts[1..]);
      assert DumpTips(ts)[1..] == DumpTips(ts[1..]);
      assert LoadTip(DumpTips(ts)[0]) == Ok(ts[0]);
      assert [ts[0]] + ts[1..] == ts;
    }
  }

  /** The combined interview-prep record survives `model_dump` followed by validation. */
  lemma InterviewPrepRoundTrip(p: InterviewPrep)
    ensures LoadInterviewPrep(DumpInterviewPrep(p)) == Ok(p)
  {
    var f := DumpInterviewPrep(p).fields;
    CompanyRoundTrip(p.company);
    assert CompanyField(f, "company_research") == Ok(p.company);
    QuestionsFieldRoundTrip(p.technical, "technical_questions", f);
    QuestionsFieldRoundTrip(p.behavioral, "behavioral_questions", f);
    TipsFieldRoundTrip(p.tips, "preparation_tips", f);
  }

  lemma QuestionsFieldRoundTrip(qs: seq<InterviewQuestion>, key: string, f: map<string, Json>)
    requires key in f && f[key] == JArr(DumpQuestions(qs))
    ensures QuestionsField(f, key) == Ok(qs)
  {
    QuestionsRoundTrip(qs);
  }

  lemma TipsFieldRoundTrip(ts: seq<PreparationTip>, key: string, f: map<string, Json>)
    requires key in f && f[key] == JArr(DumpTips(ts))
    ensures TipsField(f, key) == Ok(ts)
  {
    TipsRoundTrip(ts);
  }
}

=== FILE: remote_write.dfy ===
/** `RemoteWriteManager` (backend/prometheus_remote.py:12-142): its configuration, the
    running/stopped state, the Basic authentication header, and the conversion of collected
    samples into remote-write entries. The background thread, the clock, the registry and the
    HTTP writer are outside the model: the push takes the collected metric families and the
    current time in milliseconds as inputs and returns the request it would send. */
module RemoteWrite {
  import opened Wrappers
  import Text
  import Utf8
  import Base64

  const DefaultJobName: string := "ai_interview_prep"
  const DefaultPushInterval: nat := 15

  /** Python truthiness of an optional string: `None` and `""` are false. */
  predicate Truthy(o: Option<string>) {
    o.Some? && o.value != []
  }

  datatype Manager = Manager(
    remoteUrl: Option<string>,
    username: Option<string>,
    password: Option<string>,
    jobName: string,
    pushInterval: nat,
    instanceName: string,
    running: bool)

  /** The constructor; `hostname` is what `socket.gethostname()` returns. */
  function NewManager(remoteUrl: Option<string>, username: Option<string>, password: Option<string>,
                      jobName: string, pushInterval: nat, instanceName: Option<string>, hostname: string)
    : (m: Manager)
    ensures !m.running
    ensures Truthy(instanceName) ==> m.instanceName == instanceName.value
    ensures !Truthy(instanceName) ==> m.instanceName == hostname
    ensures m.remoteUrl == remoteUrl && m.username == username && m.password == password
    ensures m.jobName == jobName && m.pushInterval == pushInterval
  {
    Manager(remoteUrl, username, password, jobName, pushInterval,
            if Truthy(instanceName) then instanceName.value else hostname, false)
  }

  /** `start`: nothing without a remote URL or when already running. */
  function Start(m: Manager): (r: Manager)
    ensures r.running <==> m.running || Truthy(m.remoteUrl)
    ensures r.(running := m.running) == m
  {
    if !Truthy(m.remoteUrl) || m.running then m else m.(running := true)
  }

  /** `stop`: nothing when not running. */
  function Stop(m: Manager): (r: Manager)
    ensures !r.running
    ensures r.(running := m.running) == m
  {
    if !m.running then m else m.(running := false)
  }

  /** The push thread only runs for a manager with a remote URL. */
  predicate Valid(m: Manager) {
    m.running ==> Truthy(m.remoteUrl)
  }

  /** `start` sets `running` exactly when a URL is configured, and changes nothing else. */
  lemma StartEffect(m: Manager)
    ensures Start(m).running <==> (m.running || Truthy(m.remoteUrl))
    ensures Start(m).(running := m.running) == m
    ensures Valid(m) ==> Valid(Start(m))
    ensures Start(Start(m)) == Start(m)
  {
  }

  /** `stop` always ends not running, and changes nothing else. */
  lemma StopEffect(m: Manager)
    ensures !Stop(m).running
    ensures Stop(m).(running := m.running) == m
    ensures Valid(Stop(m))
    ensures Stop(Stop(m)) == Stop(m)
  {
  }

  /** Any sequence of starts and stops from a fresh manager keeps it valid. */
  lemma {:induction false} ValidAfterCommands(m: Manager, starts: seq<bool>)
    requires Valid(m)
    ensures Valid(Run(m, starts))
    decreases |starts|
  {
    if starts != [] {
      StartEffect(m);
      StopEffect(m);
      ValidAfterCommands(if starts[0] then Start(m) else Stop(m), starts[1..]);
    }
  }

  /** Applies `start` for each `true` and `stop` for each `false`, in order. */
  function Run(m: Manager, starts: seq<bool>): Manager
    decreases |starts|
  {
    if starts == [] then m
    else Run(if starts[0] then Start(m) else Stop(m), starts[1..])
  }

  lemma FreshManagerIsValid(remoteUrl: Option<string>, username: Option<string>, password: Option<string>,
                            jobName: string, pushInterval: nat, instanceName: Option<string>, hostname: string)
    ensures !NewManager(remoteUrl, username, password, jobName, pushInterval, instanceName, hostname).running
    ensures Valid(NewManager(remoteUrl, username, password, jobName, pushInterval, instanceName, hostname))
  {
  }

  // ---------------------------------------------------------------- authentication

  /** `user-pass` of section 2 of RFC 7617, UTF-8 encoded and then base 64 encoded. */
  function Credentials(username: string, password: string): string {
    Base64.Encode(Utf8.Encode(username + ":" + password))
  }

  /** The headers passed to the writer. */
  function AuthHeaders(m: Manager): (h: map<string, string>)
    ensures h.Keys <= {"Authorization"}
    ensures "Authorization" in h <==> Truthy(m.username) && Truthy(m.password)
  {
    if Truthy(m.username) && Truthy(m.password) then
      map["Authorization" := "Basic " + Credentials(m.username.value, m.password.value)]
    else map[]
  }

  /** A receiver that strips `Basic `, base 64 decodes, UTF-8 decodes and splits at the first `:`
      gets the user name and password back, as long as the user name has no `:` (which section 2
      of RFC 7617 forbids). */
  lemma AuthHeaderRecoversCredentials(m: Manager)
    requires Truthy(m.username) && Truthy(m.password)
    requires ':' !in m.username.value
    ensures var h := AuthHeaders(m)["Authorization"];
      var u, p := m.username.value, m.password.value;
      |h| >= 6 && h[..6] == "Basic " &&
      Base64.Decode(h[6..]).Some? &&
      Utf8.Decode(Base64.Decode(h[6..]).value) == Some(u + ":" + p) &&
      Text.Find(u + ":" + p, ':') == Some(|u|)
  {
    var u, p := m.username.value, m.password.value;
    var h := AuthHeaders(m)["Authorization"];
    assert h[6..] == Credentials(u, p);
    Base64.DecodeEncode(Utf8.Encode(u + ":" + p));
    Utf8.DecodeEncode(u + ":" + p);
    FirstColon(u, p);
  }

  lemma FirstColon(u: string, p: string)
    requires ':' !in u
    ensures Text.Find(u + ":" + p, ':') == Some(|u|)
  {
    var s := u + ":" + p;
    assert s[..|u|] == u && s[|u|] == ':';
  }

  // ---------------------------------------------------------------- conversion

  /** One collected sample: its name, labels and value. */
  datatype Sample = Sample(name: string, labels: map<string, string>, value: real)

  /** One entry of the payload: the label map, one value and one timestamp. */
  datatype Entry = Entry(metric: map<string, string>, values: seq<real>, timestamps: seq<int>)

  /** What `writer.send` receives: the URL, the headers and the entries. */
  datatype WriteRequest = WriteRequest(url: Option<string>, headers: map<string, string>, entries: seq<Entry>)

  /** `__name__` first, then the sample's own labels over it, then `job` and `instance` when
      still missing. */
  function LabelMap(m: Manager, s: Sample): (r: map<string, string>)
    ensures r.Keys == s.labels.Keys + {"__name__", "job", "instance"}
    ensures forall k :: k in s.labels ==> r[k] == s.labels[k]
    ensures "__name__" !in s.labels ==> r["__name__"] == s.name
    ensures "job" !in s.labels ==> r["job"] == m.jobName
    ensures "instance" !in s.labels ==> r["instance"] == m.instanceName
  {
    var meta := map["__name__" := s.name] + s.labels;
    var withJob := if "job" in meta then meta else meta["job" := m.jobName];
    if "instance" in withJob then withJob else withJob["instance" := m.instanceName]
  }

  /** The samples of all families in collection order. */
  function Flatten(families: seq<seq<Sample>>): (r: seq<Sample>)
    ensures r == [] <==> forall i :: 0 <= i < |families| ==> families[i] == []
  {
    if families == [] then [] else families[0] + Flatten(families[1..])
  }

  function EntryOf(m: Manager, s: Sample, nowMs: int): Entry {
    Entry(LabelMap(m, s), [s.value], [nowMs])
  }

  /** The payload: one entry per sample, in order, all stamped with the same time. */
  function Convert(m: Manager, samples: seq<Sample>, nowMs: int): (entries: seq<Entry>)
    ensures |entries| == |samples|
    ensures forall i :: 0 <= i < |samples| ==>
      entries[i] == Entry(LabelMap(m, samples[i]), [samples[i].value], [nowMs])
  {
    if samples == [] then []
    else [EntryOf(m, samples[0], nowMs)] + Convert(m, samples[1..], nowMs)
  }

  /** `_push_metrics`: the request sent, or `None` when there is nothing to send. */
  function Push(m: Manager, families: seq<seq<Sample>>, nowMs: int): (r: Option<WriteRequest>)
    ensures r.None? <==> forall i :: 0 <= i < |families| ==> families[i] == []
    ensures r.Some? ==> r.value.url == m.remoteUrl && r.value.headers == AuthHeaders(m)
    ensures r.Some? ==> r.value.entries == Convert(m, Flatten(families), nowMs)
  {
    var entries := Convert(m, Flatten(families), nowMs);
    if entries == [] then None else Some(WriteRequest(m.remoteUrl, AuthHeaders(m), entries))
  }

  /** Every entry carries the `__name__`, `job` and `instance` labels. */
  lemma EntriesCarryRequiredLabels(m: Manager, families: seq<seq<Sample>>, nowMs: int)
    ensures forall e :: e in Convert(m, Flatten(families), nowMs) ==>
      "__name__" in e.metric && "job" in e.metric && "instance" in e.metric
  {
  }

  /** A sample's own `job` and `instance` labels win over the manager's defaults. */
  lemma SampleLabelsWin(m: Manager, s: Sample)
    requires "job" in s.labels && "instance" in s.labels
    ensures LabelMap(m, s)["job"] == s.labels["job"]
    ensures LabelMap(m, s)["instance"] == s.labels["instance"]
  {
  }

  /** Flattening keeps each family's samples together and in order. */
  lemma {:induction false} FlattenAppend(a: seq<seq<Sample>>, b: seq<seq<Sample>>)
    ensures Flatten(a + b) == Flatten(a) + Flatten(b)
  {
    if a == [] {
      assert a + b == b;
    } else {
      assert (a + b)[1..] == a[1..] + b;
      FlattenAppend(a[1..], b);
    }
  }
}

=== FILE: routes.dfy ===
/** The `/api/analyze-job` handler (backend/app.py:519-558): the request guard, and how the
    orchestrator's final output becomes the response. The agent run is the oracle `run` (an `Err`
    is an exception it raised) and `json.loads` is the oracle `decode`. */
module Routes {
  import opened Wrappers
  import opened Json
  import Text
  import Records

  const UrlRequired: string := "URL is required"

  /** The orchestrator's final output: a pydantic record, a plain dictionary, or text. */
  datatype FinalOutput =
    | Structured(record: Records.JobSkills)
    | Mapping(fields: map<string, Json>)
    | Text(text: string)

  /** A JSON response with its status, or Flask's own error page for an exception that escapes
      the handler. */
  datatype Reply = Reply(status: nat, body: Json) | ServerErrorPage

  function ErrorBody(message: string): Json {
    JObj(map["error" := JStr(message)])
  }

  function RawOutput(s: string): Json {
    JObj(map["raw_output" := JStr(s)])
  }

  /** The match of `re.search(r'({.*})', s, re.DOTALL)`: from the first `{` to the last `}`, if
      that `}` comes after it. */
  function Sniff(s: string): (r: Option<string>)
    ensures r.Some? ==> |r.value| >= 2 && r.value[0] == '{' && r.value[|r.value| - 1] == '}'
  {
    match Text.Find(s, '{')
    case None => None
    case Some(i) =>
      match Text.FindLast(s, '}')
      case None => None
      case Some(j) => if i < j then Some(s[i..j + 1]) else None
  }

  /** The request guard: `not data or not data.get('url')`. `Some(b)` is the guard's verdict;
      `None` means `data` is truthy but has no `.get`, and the handler raises. */
  function UrlMissing(data: Json): Option<bool> {
    if !Truthy(data) then Some(true)
    else if !data.JObj? then None
    else Some("url" !in data.fields || !Truthy(data.fields["url"]))
  }

  /** What the handler returns for the final output of a successful run. */
  function Respond(out: FinalOutput, decode: string -> Option<Json>): (r: Reply)
    ensures r.Reply? && r.status == 200
    ensures out.Mapping? ==> r.body == JObj(out.fields)
  {
    match out
    case Structured(record) => Reply(200, Records.DumpJobSkills(record))
    case Mapping(fields) => Reply(200, JObj(fields))
    case Text(s) =>
      match Sniff(s)
      case None => Reply(200, RawOutput(s))
      case Some(span) =>
        match decode(span)
        case None => Reply(200, RawOutput(s))
        case Some(v) => Reply(200, v)
  }

  function AnalyzeJob(data: Json, run: Json -> Result<FinalOutput>, decode: string -> Option<Json>): Reply {
    match UrlMissing(data)
    case None => ServerErrorPage
    case Some(true) => Reply(400, ErrorBody(UrlRequired))
    case Some(false) =>
      match run(data.fields["url"])
      case Err(message) => Reply(500, ErrorBody(message))
      case Ok(out) => Respond(out, decode)
  }

  // ---------------------------------------------------------------- properties

  /** The handler answers 400 "URL is required" exactly when the body is empty or falsy, or is an
      object whose `url` is missing or falsy; the agent run is not consulted then. */
  lemma UrlRequiredIff(data: Json, run: Json -> Result<FinalOutput>, decode: string -> Option<Json>)
    ensures AnalyzeJob(data, run, decode) == Reply(400, ErrorBody(UrlRequired)) <==>
      (!Truthy(data) || (data.JObj? && ("url" !in data.fields || !Truthy(data.fields["url"]))))
    ensures AnalyzeJob(data, run, decode).Reply? && AnalyzeJob(data, run, decode).status == 400 ==>
      forall other: Json -> Result<FinalOutput> {:trigger AnalyzeJob(data, other, decode)} ::
        AnalyzeJob(data, other, decode) == AnalyzeJob(data, run, decode)
  {
  }

  /** A structured output is returned as its `model_dump`, which validates back to the record. */
  lemma StructuredOutputRoundTrips(data: Json, run: Json -> Result<FinalOutput>, decode: string -> Option<Json>)
    requires UrlMissing(data) == Some(false)
    requires run(data.fields["url"]).Ok? && run(data.fields["url"]).value.Structured?
    ensures AnalyzeJob(data, run, decode).Reply? && AnalyzeJob(data, run, decode).status == 200
    ensures Records.LoadJobSkills(AnalyzeJob(data, run, decode).body) == Ok(run(data.fields["url"]).value.record)
  {
    Records.JobSkillsRoundTrip(run(data.fields["url"]).value.record);
  }

  /** A failed run gives 500 with the exception's message. */
  lemma RunFailureIs500(data: Json, run: Json -> Result<FinalOutput>, decode: string -> Option<Json>)
    requires UrlMissing(data) == Some(false) && run(data.fields["url"]).Err?
    ensures AnalyzeJob(data, run, decode) == Reply(500, ErrorBody(run(data.fields["url"]).error))
  {
  }

  /** A text output answers with the decoded brace span when there is one that decodes, and
      with `{"raw_output": text}` otherwise. */
  lemma TextOutputSniffed(s: string, decode: string -> Option<Json>)
    ensures Sniff(s).Some? && decode(Sniff(s).value).Some? ==>
      Respond(Text(s), decode) == Reply(200, decode(Sniff(s).value).value)
    ensures Sniff(s).None? || decode(Sniff(s).value).None? ==>
      Respond(Text(s), decode) == Reply(200, RawOutput(s))
  {
  }

  /** `Sniff` finds a span exactly when some `{` precedes some `}`. */
  lemma SniffExistsIff(s: string)
    ensures Sniff(s).Some? <==> exists i, j :: 0 <= i < j < |s| && s[i] == '{' && s[j] == '}'
  {
    if exists i, j :: 0 <= i < j < |s| && s[i] == '{' && s[j] == '}' {
      var i, j :| 0 <= i < j < |s| && s[i] == '{' && s[j] == '}';
      assert '{' in s && '}' in s;
      var a, b := Text.Find(s, '{').value, Text.FindLast(s, '}').value;
    }
  }

  /** The span `Sniff` returns starts at the first `{` and ends at the last `}` of `s`. */
  lemma SniffIsOutermostSpan(s: string) returns (i: nat, j: nat)
    requires Sniff(s).Some?
    ensures i < j < |s| && s[i] == '{' && s[j] == '}'
    ensures '{' !in s[..i] && '}' !in s[j + 1..]
    ensures Sniff(s).value == s[i..j + 1]
  {
    i, j := Text.Find(s, '{').value, Text.FindLast(s, '}').value;
  }

  /** Prose around a braced body is cut away, whatever the body holds. */
  lemma SniffCutsProse(prose: string, body: string, tail: string)
    requires '{' !in prose && '}' !in tail
    ensures Sniff(prose + "{" + body + "}" + tail) == Some("{" + body + "}")
  {
    var s := prose + "{" + body + "}" + tail;
    var i, j := |prose|, |prose| + 1 + |body|;
    ProsePieces(prose, body, tail);
    Text.FindIs(s, '{', i);
    Text.FindLastIs(s, '}', j);
  }

  lemma ProsePieces(prose: string, body: string, tail: string)
    ensures var s, i, j := prose + "{" + body + "}" + tail, |prose|, |prose| + 1 + |body|;
      && j < |s| && s[..i] == prose && s[i] == '{'
      && s[j + 1..] == tail && s[j] == '}' && s[i..j + 1] == "{" + body + "}"
  {
  }

  /** When every `}` comes before every `{`, there is no span. */
  lemma SniffNeedsOrder(s: string)
    requires forall i, j :: 0 <= i < |s| && 0 <= j < |s| && s[i] == '{' && s[j] == '}' ==> j < i
    ensures Sniff(s) == None
  {
    SniffExistsIff(s);
  }
}

=== FILE: text.dfy ===
/** Python string primitives the service relies on: `str.isspace`, `re.sub(r'\s+', ' ', s)`,
    `str.strip()`, `str.split()`, `str.find`/`str.rfind` and `str(int)`. */
module Text {
  import opened Wrappers

  /** The characters for which Python's `str.isspace` holds, which is what `\s` matches in a
      `str` pattern and what `str.strip()` removes: the ASCII controls tab to carriage return and
      file to unit separator, the space, NEL, no-break space, Ogham space mark, the spaces
      U+2000 to U+200A, the line and paragraph separators, narrow no-break space, medium
      mathematical space and the ideographic space. */
  predicate IsSpace(c: char) {
    ('\t' <= c <= '\r') || ('\U{1c}' <= c <= ' ') || c == '\U{85}' || c == '\U{a0}' || c == '\U{1680}'
    || ('\U{2000}' <= c <= '\U{200a}') || c == '\U{2028}' || c == '\U{2029}' || c == '\U{202f}'
    || c == '\U{205f}' || c == '\U{3000}'
  }

  /** No two adjacent whitespace characters. */
  predicate NoSpaceRuns(s: string) {
    forall i :: 0 <= i < |s| - 1 ==> !(IsSpace(s[i]) && IsSpace(s[i + 1]))
  }

  /** The only whitespace character present is the plain space. */
  predicate OnlyPlainSpaces(s: string) {
    forall i :: 0 <= i < |s| && IsSpace(s[i]) ==> s[i] == ' '
  }

  predicate AllSpace(s: string) {
    forall i :: 0 <= i < |s| ==> IsSpace(s[i])
  }

  predicate NoSpace(s: string) {
    forall i :: 0 <= i < |s| ==> !IsSpace(s[i])
  }

  /** Neither end of `s` is whitespace. */
  predicate Trimmed(s: string) {
    s == [] || (!IsSpace(s[0]) && !IsSpace(s[|s| - 1]))
  }

  /** The leading whitespace run of `s` removed (`str.lstrip()`). */
  function LStrip(s: string): (r: string)
    ensures |r| <= |s| && r == s[|s| - |r|..]
    ensures r == [] || !IsSpace(r[0])
  {
    if s != [] && IsSpace(s[0]) then LStrip(s[1..]) else s
  }

  /** The trailing whitespace run of `s` removed (`str.rstrip()`). */
  function RStrip(s: string): (r: string)
    ensures |r| <= |s| && r == s[..|r|]
    ensures r == [] || !IsSpace(r[|r| - 1])
  {
    if s != [] && IsSpace(s[|s| - 1]) then RStrip(s[..|s| - 1]) else s
  }

  /** `str.strip()`: the longest middle part of `s` whose ends are not whitespace. */
  function Strip(s: string): (r: string)
  {
    RStrip(LStrip(s))
  }

  /** `re.sub(r'\s+', ' ', s)`: every maximal whitespace run becomes one plain space. */
  function Collapse(s: string): (r: string)
    ensures |r| <= |s| && (r == [] <==> s == [])
    ensures r != [] ==> (IsSpace(r[0]) <==> IsSpace(s[0]))
    decreases |s|
  {
    if s == [] then []
    else if IsSpace(s[0]) then [' '] + Collapse(LStrip(s))
    else [s[0]] + Collapse(s[1..])
  }

  /** `re.sub(r'\n+', '\n', s)`: every run of newlines becomes one newline. */
  function SqueezeNewlines(s: string): (r: string)
    decreases |s|
  {
    if s == [] then []
    else if s[0] == '\n' then ['\n'] + SqueezeNewlines(DropNewlines(s))
    else [s[0]] + SqueezeNewlines(s[1..])
  }

  function DropNewlines(s: string): (r: string)
    ensures |r| <= |s| && r == s[|s| - |r|..]
    ensures r == [] || r[0] != '\n'
  {
    if s != [] && s[0] == '\n' then DropNewlines(s[1..]) else s
  }

  /** The non-whitespace characters of `s`, in order. */
  function Visible(s: string): (r: string)
  {
    if s == [] then []
    else if IsSpace(s[0]) then Visible(s[1..])
    else [s[0]] + Visible(s[1..])
  }

  /** The longest prefix of `s` holding no whitespace. */
  function Word(s: string): (r: string)
    ensures |r| <= |s| && r == s[..|r|]
    ensures |r| == |s| || IsSpace(s[|r|])
  {
    if s == [] || IsSpace(s[0]) then [] else [s[0]] + Word(s[1..])
  }

  /** `str.split()` with no separator: the maximal whitespace-free runs of `s`. */
  function Words(s: string): (ws: seq<string>)
    decreases |s|
  {
    if s == [] then []
    else if IsSpace(s[0]) then Words(s[1..])
    else
      var w := Word(s);
      [w] + Words(s[|w|..])
  }

  /** `" ".join(ws)`. */
  function JoinSpaces(ws: seq<string>): string
  {
    if ws == [] then ""
    else if |ws| == 1 then ws[0]
    else ws[0] + " " + JoinSpaces(ws[1..])
  }

  function DigitChar(d: nat): (c: char)
    requires d < 10
  {
    "0123456789"[d]
  }

  function DigitValue(c: char): nat
  {
    if '0' <= c <= '9' then (c as int - '0' as int) as nat else 0
  }

  predicate IsDigits(s: string) {
    forall i :: 0 <= i < |s| ==> '0' <= s[i] <= '9'
  }

  /** `str(n)` for a non-negative integer. */
  function NatToString(n: nat): (r: string)
    ensures |r| >= 1 && IsDigits(r)
    ensures n > 0 ==> r[0] != '0'
  {
    if n < 10 then [DigitChar(n)] else NatToString(n / 10) + [DigitChar(n % 10)]
  }

  /** `str(i)` for any integer: a minus sign before the digits of a negative value. */
  function IntToString(i: int): (r: string)
    ensures |r| >= 1
    ensures r[0] == '-' <==> i < 0
  {
    if i < 0 then "-" + NatToString(-i) else NatToString(i)
  }

  /** `int(s)` on a string of decimal digits. */
  function ParseDigits(s: string): nat
  {
    if s == [] then 0 else ParseDigits(s[..|s| - 1]) * 10 + DigitValue(s[|s| - 1])
  }

  /** `int(s)` on the text `str` produces. */
  function ParseInt(s: string): int
  {
    if s != [] && s[0] == '-' then 0 - ParseDigits(s[1..]) as int else ParseDigits(s)
  }

  // ----- Lemmas -----

  /** `lstrip` removes only whitespace. */
  lemma {:induction false} LStripRemovesSpace(s: string)
    ensures AllSpace(s[..|s| - |LStrip(s)|])
    decreases |s|
  {
    if s != [] && IsSpace(s[0]) {
      LStripRemovesSpace(s[1..]);
      assert s[..|s| - |LStrip(s)|] == [s[0]] + s[1..][..|s| - 1 - |LStrip(s)|];
    }
  }

  /** `rstrip` removes only whitespace. */
  lemma {:induction false} RStripRemovesSpace(s: string)
    ensures AllSpace(s[|RStrip(s)|..])
    decreases |s|
  {
    if s != [] && IsSpace(s[|s| - 1]) {
      RStripRemovesSpace(s[..|s| - 1]);
      assert s[|RStrip(s)|..] == s[..|s| - 1][|RStrip(s)|..] + [s[|s| - 1]];
    }
  }

  /** A word holds no whitespace. */
  lemma {:induction false} WordIsVisible(s: string)
    ensures NoSpace(Word(s))
    decreases |s|
  {
    if s != [] && !IsSpace(s[0]) {
      WordIsVisible(s[1..]);
    }
  }

  /** After collapsing, whitespace only occurs as isolated plain spaces. */
  lemma {:induction false} CollapseShape(s: string)
    ensures NoSpaceRuns(Collapse(s)) && OnlyPlainSpaces(Collapse(s))
    decreases |s|
  {
    if s == [] {
    } else if IsSpace(s[0]) {
      CollapseShape(LStrip(s));
    } else {
      CollapseShape(s[1..]);
    }
  }

  /** Whitespace collapsing never loses or reorders a visible character. */
  lemma {:induction false} CollapseKeepsVisible(s: string)
    ensures Visible(Collapse(s)) == Visible(s)
    decreases |s|
  {
    if s == [] {
    } else if IsSpace(s[0]) {
      VisibleSkipsLeadingSpace(s);
      CollapseKeepsVisible(LStrip(s));
    } else {
      CollapseKeepsVisible(s[1..]);
    }
  }

  lemma {:induction false} VisibleSkipsLeadingSpace(s: string)
    ensures Visible(LStrip(s)) == Visible(s)
    decreases |s|
  {
    if s != [] && IsSpace(s[0]) {
      VisibleSkipsLeadingSpace(s[1..]);
    }
  }

  lemma {:induction false} WordsSkipLeadingSpace(s: string)
    ensures Words(LStrip(s)) == Words(s)
    decreases |s|
  {
    if s != [] && IsSpace(s[0]) {
      WordsSkipLeadingSpace(s[1..]);
    }
  }

  /** A run of visible characters passes through collapsing unchanged. */
  lemma {:induction false} CollapseWordPrefix(w: string, rest: string)
    requires NoSpace(w)
    ensures Collapse(w + rest) == w + Collapse(rest)
    decreases |w|
  {
    if w == [] {
      assert w + rest == rest;
    } else {
      var s := w + rest;
      var c := Collapse(rest);
      assert s[1..] == w[1..] + rest;
      assert NoSpace(w[1..]) by { NoSpaceTail(w); }
      CollapseWordPrefix(w[1..], rest);
      assert !IsSpace(s[0]) by { assert s[0] == w[0]; }
      assert Collapse(s) == [w[0]] + (w[1..] + c);
      assert [w[0]] + (w[1..] + c) == w + c by { ConsAssoc(w, c); }
    }
  }

  lemma NoSpaceTail(w: string)
    requires w != [] && NoSpace(w)
    ensures !IsSpace(w[0]) && NoSpace(w[1..])
  {
    assert forall i :: 0 <= i < |w| - 1 ==> w[1..][i] == w[i + 1];
  }

  lemma ConsAssoc(w: string, c: string)
    requires w != []
    ensures [w[0]] + (w[1..] + c) == w + c
  {
    assert [w[0]] + w[1..] == w;
  }

  lemma {:induction false} WordOfPrefix(w: string, rest: string)
    requires NoSpace(w)
    requires rest == [] || IsSpace(rest[0])
    ensures Word(w + rest) == w
    decreases |w|
  {
    if w == [] {
    } else {
      assert (w + rest)[1..] == w[1..] + rest;
      WordOfPrefix(w[1..], rest);
    }
  }

  lemma WordsOfPrefix(w: string, rest: string)
    requires w != [] && NoSpace(w)
    requires rest == [] || IsSpace(rest[0])
    ensures Words(w + rest) == [w] + Words(rest)
  {
    WordOfPrefix(w, rest);
    assert (w + rest)[|w|..] == rest;
  }

  /** Every element of `str.split()` is a non-empty whitespace-free string. */
  predicate ValidWords(ws: seq<string>) {
    forall i :: 0 <= i < |ws| ==> ws[i] != [] && NoSpace(ws[i])
  }

  lemma {:induction false} WordsAreValid(s: string)
    ensures ValidWords(Words(s))
    decreases |s|
  {
    if s == [] {
    } else if IsSpace(s[0]) {
      WordsAreValid(s[1..]);
    } else {
      WordIsVisible(s);
      WordsAreValid(s[|Word(s)|..]);
    }
  }

  lemma {:induction false} JoinTrimmed(ws: seq<string>)
    requires ValidWords(ws)
    ensures Trimmed(JoinSpaces(ws))
    ensures ws != [] ==> JoinSpaces(ws) != [] && JoinSpaces(ws)[0] == ws[0][0]
  {
    if |ws| > 1 {
      JoinTrimmed(ws[1..]);
      var t := JoinSpaces(ws[1..]);
      assert JoinSpaces(ws) == ws[0] + " " + t;
    }
  }

  /** Collapsing a string that starts with a visible character yields its words joined by single
      spaces, followed by one space exactly when the string ends in whitespace. */
  lemma {:induction false} CollapseIsJoin(s: string)
    requires s == [] || !IsSpace(s[0])
    ensures Collapse(s) == JoinSpaces(Words(s)) + Tail(s)
    ensures s != [] ==> Words(s) != []
    decreases |s|
  {
    if s != [] {
      var w := Word(s);
      var rest := s[|w|..];
      assert s == w + rest;
      WordIsVisible(s);
      CollapseWordPrefix(w, rest);
      WordsOfPrefix(w, rest);
      if rest == [] {
        assert Collapse(s) == w;
        assert Words(s) == [w];
      } else {
        var r2 := LStrip(rest);
        WordsSkipLeadingSpace(rest);
        if r2 == [] {
          CollapseBlankAfterWord(s, w, rest);
        } else {
          CollapseIsJoin(r2);
          CollapseWordThenMore(s, w, rest);
        }
      }
    }
  }

  /** A word followed by whitespace only. */
  lemma CollapseBlankAfterWord(s: string, w: string, rest: string)
    requires w != [] && s == w + rest && rest != [] && IsSpace(rest[0]) && LStrip(rest) == []
    requires Collapse(s) == w + Collapse(rest)
    requires Words(s) == [w] + Words(LStrip(rest))
    ensures Collapse(s) == JoinSpaces(Words(s)) + Tail(s)
  {
    assert Collapse(rest) == " ";
    assert Words(s) == [w];
    TailOfSuffix(s, |w|);
    TailOfBlank(rest);
  }

  /** A word, whitespace, and a non-empty remainder whose collapse is already known. */
  lemma CollapseWordThenMore(s: string, w: string, rest: string)
    requires w != [] && s == w + rest && rest != [] && IsSpace(rest[0])
    requires LStrip(rest) != []
    requires Collapse(s) == w + Collapse(rest)
    requires Words(s) == [w] + Words(LStrip(rest))
    requires Collapse(LStrip(rest)) == JoinSpaces(Words(LStrip(rest))) + Tail(LStrip(rest))
    requires Words(LStrip(rest)) != []
    ensures Collapse(s) == JoinSpaces(Words(s)) + Tail(s)
  {
    var r2 := LStrip(rest);
    var ws2 := Words(r2);
    assert Collapse(rest) == " " + Collapse(r2);
    TailOfSuffix(s, |w|);
    TailOfSuffix(rest, |rest| - |r2|);
    assert ([w] + ws2)[1..] == ws2;
    var j2 := JoinSpaces(ws2);
    assert JoinSpaces(Words(s)) == w + " " + j2;
    SeqAssoc(w, " ", j2, Tail(r2));
  }

  lemma TailOfBlank(s: string)
    requires s != [] && LStrip(s) == []
    ensures Tail(s) == " "
  {
    LStripRemovesSpace(s);
    assert s[..|s|] == s;
  }

  lemma Assoc3(a: string, b: string, c: string)
    ensures a + (b + c) == a + b + c
  {
  }

  lemma TailOfSuffix(s: string, k: nat)
    requires k < |s|
    ensures Tail(s[k..]) == Tail(s)
    ensures Tail(s) == " " <==> IsSpace(s[|s| - 1])
  {
    assert s[k..][|s| - k - 1] == s[|s| - 1];
  }

  lemma SeqAssoc(a: string, b: string, c: string, d: string)
    ensures a + (b + (c + d)) == (a + b + c) + d
  {
  }

  /** One space when `s` ends in whitespace. */
  function Tail(s: string): string {
    if s != [] && IsSpace(s[|s| - 1]) then " " else ""
  }

  lemma {:induction false} LStripAllSpace(a: string)
    requires AllSpace(a)
    ensures LStrip(a) == []
    decreases |a|
  {
    if a != [] {
      LStripAllSpace(a[1..]);
    }
  }

  lemma {:induction false} LStripPrefix(a: string, x: string)
    requires AllSpace(a)
    requires x == [] || !IsSpace(x[0])
    ensures LStrip(a + x) == x
    decreases |a|
  {
    if a == [] {
      assert a + x == x;
    } else {
      SpaceLedStep(a, x);
      LStripPrefix(a[1..], x);
    }
  }

  lemma SpaceLedStep(a: string, x: string)
    requires a != [] && AllSpace(a)
    ensures AllSpace(a[1..])
    ensures LStrip(a + x) == LStrip(a[1..] + x)
  {
    assert (a + x)[0] == a[0];
    assert (a + x)[1..] == a[1..] + x;
  }

  lemma {:induction false} RStripSuffix(x: string, b: string)
    requires AllSpace(b)
    requires x == [] || !IsSpace(x[|x| - 1])
    ensures RStrip(x + b) == x
    decreases |b|
  {
    if b != [] {
      assert (x + b)[..|x + b| - 1] == x + b[..|b| - 1];
      RStripSuffix(x, b[..|b| - 1]);
    }
  }

  /** `str.strip()` removes exactly the whitespace padding around a trimmed core. */
  lemma StripPadding(a: string, m: string, b: string)
    requires AllSpace(a) && AllSpace(b) && Trimmed(m)
    ensures Strip(a + m + b) == m
  {
    if m == [] {
      assert a + m + b == a + b;
      LStripAllSpace(a + b);
    } else {
      assert a + m + b == a + (m + b);
      LStripPrefix(a, m + b);
      RStripSuffix(m, b);
    }
  }

  /** The service's clean-up `re.sub(r'\s+', ' ', s).strip()` is Python's `" ".join(s.split())`. */
  lemma NormalizeIsJoinOfWords(s: string)
    ensures Strip(Collapse(s)) == JoinSpaces(Words(s))
  {
    var lead := CollapseLead(s);
    WordsSkipLeadingSpace(s);
    NormalizeFromCore(LStrip(s), lead, Collapse(s));
  }

  /** Collapsing turns the leading whitespace run, if any, into one space. */
  lemma CollapseLead(s: string) returns (lead: string)
    ensures lead == [] || lead == " "
    ensures AllSpace(lead)
    ensures Collapse(s) == lead + Collapse(LStrip(s))
  {
    if s != [] && IsSpace(s[0]) {
      lead := " ";
    } else {
      lead := [];
      assert [] + Collapse(s) == Collapse(s);
    }
  }

  lemma NormalizeFromCore(core: string, lead: string, x: string)
    requires core == [] || !IsSpace(core[0])
    requires AllSpace(lead) && x == lead + Collapse(core)
    ensures Strip(x) == JoinSpaces(Words(core))
  {
    CollapseIsJoin(core);
    WordsAreValid(core);
    JoinTrimmed(Words(core));
    var j := JoinSpaces(Words(core));
    var tail := Tail(core);
    Assoc3(lead, j, tail);
    StripPadding(lead, j, tail);
  }

  /** `str.split()` undoes `" ".join(...)` on a list of whitespace-free non-empty words. */
  lemma {:induction false} WordsOfJoin(ws: seq<string>)
    requires ValidWords(ws)
    ensures Words(JoinSpaces(ws)) == ws
  {
    if ws == [] {
    } else if |ws| == 1 {
      WordsOfPrefix(ws[0], []);
      assert ws[0] + [] == ws[0];
    } else {
      var t := JoinSpaces(ws[1..]);
      JoinTrimmed(ws[1..]);
      WordsOfJoin(ws[1..]);
      assert ws[0] + " " + t == ws[0] + (" " + t);
      WordsOfPrefix(ws[0], " " + t);
      assert (" " + t)[1..] == t;
      assert Words(" " + t) == Words(t);
      assert [ws[0]] + ws[1..] == ws;
    }
  }

  /** `str(n)` read back with `int(...)` is `n`. */
  lemma {:induction false} ParseNatToString(n: nat)
    ensures ParseDigits(NatToString(n)) == n
  {
    if n >= 10 {
      ParseNatToString(n / 10);
      var r := NatToString(n);
      assert r[..|r| - 1] == NatToString(n / 10);
    }
  }

  lemma IntToStringRoundTrip(i: int)
    ensures ParseInt(IntToString(i)) == i
  {
    if i < 0 {
      ParseNatToString(-i);
      assert IntToString(i)[1..] == NatToString(-i);
    } else {
      ParseNatToString(i);
    }
  }

  /** `s.find(c)`: the first index of `c` in `s`. */
  function Find(s: string, c: char): (r: Option<nat>)
    ensures r.None? <==> c !in s
    ensures r.Some? ==> r.value < |s| && s[r.value] == c && c !in s[..r.value]
  {
    if s == [] then None
    else if s[0] == c then Some(0)
    else match Find(s[1..], c)
      case None => None
      case Some(k) => assert s[..k + 1] == [s[0]] + s[1..][..k]; Some(k + 1)
  }

  /** `s.rfind(c)`: the last index of `c` in `s`. */
  function FindLast(s: string, c: char): (r: Option<nat>)
    ensures r.None? <==> c !in s
    ensures r.Some? ==> r.value < |s| && s[r.value] == c && c !in s[r.value + 1..]
  {
    if s == [] then None
    else if s[|s| - 1] == c then Some(|s| - 1)
    else
      var r := FindLast(s[..|s| - 1], c);
      assert r.Some? ==> s[r.value + 1..] == s[..|s| - 1][r.value + 1..] + [s[|s| - 1]];
      r
  }

  /** The first occurrence is the one with none before it. */
  lemma {:induction false} FindIs(s: string, c: char, i: nat)
    requires i < |s| && s[i] == c && c !in s[..i]
    ensures Find(s, c) == Some(i)
    decreases i
  {
    if i > 0 {
      assert s[..i] == [s[0]] + s[1..][..i - 1];
      FindIs(s[1..], c, i - 1);
    }
  }

  /** The last occurrence is the one with none after it. */
  lemma {:induction false} FindLastIs(s: string, c: char, j: nat)
    requires j < |s| && s[j] == c && c !in s[j + 1..]
    ensures FindLast(s, c) == Some(j)
    decreases |s| - j
  {
    if j < |s| - 1 {
      assert s[j + 1..] == s[..|s| - 1][j + 1..] + [s[|s| - 1]];
      FindLastIs(s[..|s| - 1], c, j);
    }
  }
}

=== FILE: url.dfy ===
/** The part of Python's `urllib.parse.urlparse` (CPython 3.12 `urlsplit`) that the page fetcher's
    guard looks at: the scheme, the network location, and the unbalanced-bracket error the split raises. */
module Url {
  import opened Wrappers
  import Text

  /** Characters that end the network location. */
  const NetlocDelimiters: string := "/?#"

  const InvalidIpv6: string := "Invalid IPv6 URL"

  datatype SplitUrl = SplitUrl(scheme: string, netloc: string, rest: string)

  predicate IsAsciiLetter(c: char) {
    ('a' <= c <= 'z') || ('A' <= c <= 'Z')
  }

  /** Characters allowed in a scheme (`urllib.parse.scheme_chars`): ASCII letters, digits, `+-.`. */
  predicate IsSchemeChar(c: char) {
    IsAsciiLetter(c) || ('0' <= c <= '9') || c == '+' || c == '-' || c == '.'
  }

  predicate AllSchemeChars(s: string) {
    forall i :: 0 <= i < |s| ==> IsSchemeChar(s[i])
  }

  /** Lower-cases ASCII letters and keeps every other character. */
  function AsciiLower(s: string): (r: string)
    ensures |r| == |s|
    ensures forall i :: 0 <= i < |s| ==> (r[i] == s[i] <==> !('A' <= s[i] <= 'Z'))
  {
    if s == [] then []
    else [if 'A' <= s[0] <= 'Z' then (s[0] as int + 32) as char else s[0]] + AsciiLower(s[1..])
  }

  /** `url.lstrip(_WHATWG_C0_CONTROL_OR_SPACE)`: drops leading characters up to U+0020. */
  function StripLeadingControls(s: string): (r: string)
    ensures |r| <= |s| && r == s[|s| - |r|..]
    ensures r == [] || r[0] > ' '
    ensures s != [] && s[0] > ' ' ==> r == s
  {
    if s != [] && s[0] <= ' ' then StripLeadingControls(s[1..]) else s
  }

  predicate IsUnsafe(c: char) {
    c == '\t' || c == '\r' || c == '\n'
  }

  /** Removes every tab, carriage return and line feed (`_UNSAFE_URL_BYTES_TO_REMOVE`). */
  function RemoveUnsafe(s: string): (r: string)
    ensures |r| <= |s|
    ensures forall i :: 0 <= i < |r| ==> !IsUnsafe(r[i])
    ensures (forall i :: 0 <= i < |s| ==> !IsUnsafe(s[i])) ==> r == s
  {
    if s == [] then []
    else if IsUnsafe(s[0]) then RemoveUnsafe(s[1..])
    else [s[0]] + RemoveUnsafe(s[1..])
  }

  /** The first index at or after `from` of a character of `delims`, or `|s|` when there is none. */
  function FirstDelimiter(s: string, from: nat, delims: string): (r: nat)
    requires from <= |s|
    ensures from <= r <= |s|
    ensures r < |s| ==> s[r] in delims
    ensures forall i :: from <= i < r ==> s[i] !in delims
    decreases |s| - from
  {
    if from == |s| then |s|
    else if s[from] in delims then from
    else FirstDelimiter(s, from + 1, delims)
  }

  /** The scheme split: a leading run of scheme characters that starts with an ASCII letter and is
      followed by `:`. Returns the lower-cased scheme and the text after the colon, or `("", s)`. */
  function SplitScheme(s: string): (r: (string, string))
  {
    match Text.Find(s, ':')
    case Some(i) =>
      if i > 0 && IsAsciiLetter(s[0]) && AllSchemeChars(s[..i]) then (AsciiLower(s[..i]), s[i + 1..])
      else ("", s)
    case None => ("", s)
  }

  /** The network-location split of the text after the scheme: when it starts with `//`, the
      characters up to the first `/`, `?` or `#`; an unbalanced `[` or `]` in them raises. */
  function SplitNetloc(after: string): (r: Result<(string, string)>)
    ensures r.Err? ==> r.error == InvalidIpv6
  {
    if |after| >= 2 && after[..2] == "//" then
      var d := FirstDelimiter(after, 2, NetlocDelimiters);
      var netloc := after[2..d];
      if ('[' in netloc && ']' !in netloc) || (']' in netloc && '[' !in netloc) then Err(InvalidIpv6)
      else Ok((netloc, after[d..]))
    else Ok(("", after))
  }

  /** `urlsplit(url)`, keeping the scheme, the network location and everything after it. */
  function UrlSplit(url: string): (r: Result<SplitUrl>)
    ensures r.Err? ==> r.error == InvalidIpv6
  {
    var split := SplitScheme(RemoveUnsafe(StripLeadingControls(url)));
    match SplitNetloc(split.1)
    case Ok(parts) => Ok(SplitUrl(split.0, parts.0, parts.1))
    case Err(e) => Err(e)
  }

  // ----- Lemmas -----

  /** Composing `scheme://host` plus a path, query or fragment and splitting it again gives back the
      lower-cased scheme, the host and the remainder. */
  lemma SplitOfComposed(scheme: string, host: string, rest: string)
    requires scheme != [] && IsAsciiLetter(scheme[0]) && AllSchemeChars(scheme)
    requires forall i :: 0 <= i < |host| ==> host[i] !in NetlocDelimiters && host[i] !in "[]" && !IsUnsafe(host[i])
    requires rest == [] || rest[0] in NetlocDelimiters
    requires NoUnsafe(rest)
    ensures UrlSplit(scheme + "://" + host + rest) == Ok(SplitUrl(AsciiLower(scheme), host, rest))
  {
    var tail := "//" + host + rest;
    var url := scheme + ":" + tail;
    assert url == scheme + "://" + host + rest;
    assert NoUnsafe(tail) by {
      assert NoUnsafe(host);
      NoUnsafeConcat("//", host);
      NoUnsafeConcat("//" + host, rest);
    }
    ComposedIsClean(scheme, tail);
    SchemeOfComposed(scheme, tail);
    NetlocOfComposed(host, rest);
    SplitOfClean(url, AsciiLower(scheme), host, rest);
  }

  lemma SplitOfClean(url: string, scheme: string, host: string, rest: string)
    requires RemoveUnsafe(StripLeadingControls(url)) == url
    requires SplitScheme(url) == (scheme, "//" + host + rest)
    requires SplitNetloc("//" + host + rest) == Ok((host, rest))
    ensures UrlSplit(url) == Ok(SplitUrl(scheme, host, rest))
  {
  }

  predicate NoUnsafe(s: string) {
    forall i :: 0 <= i < |s| ==> !IsUnsafe(s[i])
  }

  lemma NoUnsafeConcat(a: string, b: string)
    requires NoUnsafe(a) && NoUnsafe(b)
    ensures NoUnsafe(a + b)
  {
    assert forall i :: 0 <= i < |a + b| ==> (a + b)[i] == if i < |a| then a[i] else b[i - |a|];
  }

  lemma ComposedIsClean(scheme: string, tail: string)
    requires scheme != [] && IsAsciiLetter(scheme[0]) && AllSchemeChars(scheme)
    requires NoUnsafe(tail)
    ensures RemoveUnsafe(StripLeadingControls(scheme + ":" + tail)) == scheme + ":" + tail
  {
    var url := scheme + ":" + tail;
    assert url[0] == scheme[0];
    assert StripLeadingControls(url) == url;
    NoUnsafeConcat(scheme, ":");
    NoUnsafeConcat(scheme + ":", tail);
  }

  lemma SchemeOfComposed(scheme: string, tail: string)
    requires scheme != [] && IsAsciiLetter(scheme[0]) && AllSchemeChars(scheme)
    ensures SplitScheme(scheme + ":" + tail) == (AsciiLower(scheme), tail)
  {
    var url := scheme + ":" + tail;
    assert ':' !in scheme by {
      }
    assert url == scheme + (":" + tail);
    FindAfterPrefix(scheme, ":" + tail, ':');
    assert url[..|scheme|] == scheme;
    assert url[|scheme| + 1..] == tail;
  }

  lemma NetlocOfComposed(host: string, rest: string)
    requires forall i :: 0 <= i < |host| ==> host[i] !in NetlocDelimiters && host[i] !in "[]"
    requires rest == [] || rest[0] in NetlocDelimiters
    ensures SplitNetloc("//" + host + rest) == Ok((host, rest))
  {
    var after := "//" + host + rest;
    var d := FirstDelimiter(after, 2, NetlocDelimiters);
    assert forall i :: 2 <= i < 2 + |host| ==> after[i] == host[i - 2];
    if 2 + |host| < |after| {
      assert after[2 + |host|] == rest[0];
    }
    assert d == 2 + |host|;
    assert after[2..d] == host;
    assert after[d..] == rest;
    assert '[' !in host && ']' !in host by {
      assert forall i :: 0 <= i < |host| ==> host[i] != '[' && host[i] != ']';
    }
    assert after[..2] == "//";
  }

  lemma FindAfterPrefix(p: string, q: string, c: char)
    requires c !in p && q != [] && q[0] == c
    ensures Text.Find(p + q, c) == Some(|p|)
  {
    var s := p + q;
    assert s[|p|] == c;
    var k := Text.Find(s, c).value;
    assert forall j :: 0 <= j < k ==> s[j] != c by {
      assert forall j :: 0 <= j < k ==> s[j] == s[..k][j];
    }
    assert forall j :: 0 <= j < |p| ==> s[j] == p[j];
  }

  /** Splitting off a scheme leaves a suffix of the input. */
  lemma SplitSchemeLeavesSuffix(s: string)
    ensures |SplitScheme(s).1| <= |s| && SplitScheme(s).1 == s[|s| - |SplitScheme(s).1|..]
  {
  }

  /** A URL with no colon has no scheme, so it fails the page fetcher's guard. */
  lemma NoColonNoScheme(url: string)
    requires ':' !in url
    ensures UrlSplit(url).Ok? ==> UrlSplit(url).value.scheme == []
  {
    var cleaned := RemoveUnsafe(StripLeadingControls(url));
    assert ':' !in StripLeadingControls(url);
    RemoveUnsafeKeepsAbsence(StripLeadingControls(url), ':');
    assert Text.Find(cleaned, ':') == None;
  }

  lemma {:induction false} RemoveUnsafeKeepsAbsence(s: string, c: char)
    requires c !in s
    ensures c !in RemoveUnsafe(s)
    decreases |s|
  {
    if s != [] {
      RemoveUnsafeKeepsAbsence(s[1..], c);
    }
  }

  /** A URL without any `/` has no network location, so it fails the page fetcher's guard. */
  lemma NoSlashNoNetloc(url: string)
    requires '/' !in url
    ensures UrlSplit(url) == Ok(SplitUrl(SplitScheme(RemoveUnsafe(StripLeadingControls(url))).0, [],
                                         SplitScheme(RemoveUnsafe(StripLeadingControls(url))).1))
  {
    var stripped := StripLeadingControls(url);
    assert '/' !in stripped;
    RemoveUnsafeKeepsAbsence(stripped, '/');
    var cleaned := RemoveUnsafe(stripped);
    SplitSchemeLeavesSuffix(cleaned);
    var after := SplitScheme(cleaned).1;
    assert '/' !in after;
    if |after| >= 2 {
      assert after[..2][0] == after[0];
    }
    assert SplitNetloc(after) == Ok(("", after));
  }
}

=== FILE: utf8.dfy ===
/** UTF-8 as `str.encode()` produces it (RFC 3629, section 3), with the matching decoder. Dafny
    characters are Unicode scalar values, so every string has an encoding. */
module Utf8 {
  import opened Wrappers

  type byte = x: nat | x < 256

  /** Continuation byte carrying the six bits `x % 64`. */
  function Cont(x: nat): byte {
    0x80 + x % 64
  }

  /** The one-to-four byte sequence of one scalar value. */
  function EncodeChar(c: char): (r: seq<byte>)
    ensures 1 <= |r| <= 4
    ensures |r| == Width(r[0])
  {
    var v := c as int;
    if v < 0x80 then [v]
    else if v < 0x800 then [0xC0 + v / 64, Cont(v)]
    else if v < 0x1_0000 then [0xE0 + v / 4096, Cont(v / 64), Cont(v)]
    else [0xF0 + v / 262144, Cont(v / 4096), Cont(v / 64), Cont(v)]
  }

  function Encode(s: string): (r: seq<byte>)
    ensures |s| <= |r| <= 4 * |s|
  {
    if s == [] then [] else EncodeChar(s[0]) + Encode(s[1..])
  }

  /** The length of the sequence a lead byte announces; 0 for a byte that cannot start one. */
  function Width(b: byte): nat {
    if b < 0x80 then 1
    else if b < 0xC2 then 0
    else if b < 0xE0 then 2
    else if b < 0xF0 then 3
    else if b < 0xF5 then 4
    else 0
  }

  predicate IsCont(b: byte) {
    0x80 <= b < 0xC0
  }

  predicate IsScalar(v: int) {
    (0 <= v < 0xD800) || (0xE000 <= v < 0x11_0000)
  }

  /** The scalar value of one well-formed sequence, rejecting overlong forms and surrogates. */
  function DecodeChar(bs: seq<byte>): (r: Option<char>)
    requires 1 <= |bs| <= 4
  {
    var b := seq(|bs|, i requires 0 <= i < |bs| => bs[i] as int);
    var v :=
      if |b| == 1 then b[0]
      else if |b| == 2 then (b[0] - 0xC0) * 64 + (b[1] - 0x80)
      else if |b| == 3 then (b[0] - 0xE0) * 4096 + (b[1] - 0x80) * 64 + (b[2] - 0x80)
      else (b[0] - 0xF0) * 262144 + (b[1] - 0x80) * 4096 + (b[2] - 0x80) * 64 + (b[3] - 0x80);
    var least := if |bs| == 1 then 0 else if |bs| == 2 then 0x80 else if |bs| == 3 then 0x800 else 0x1_0000;
    if |bs| == Width(bs[0]) && (forall i :: 1 <= i < |bs| ==> IsCont(bs[i])) && least <= v && IsScalar(v)
    then Some(v as char)
    else None
  }

  function Decode(bs: seq<byte>): (r: Option<string>)
    decreases |bs|
  {
    if bs == [] then Some([])
    else
      var w := Width(bs[0]);
      if w == 0 || |bs| < w then None
      else match DecodeChar(bs[..w])
        case None => None
        case Some(c) =>
          match Decode(bs[w..])
          case None => None
          case Some(rest) => Some([c] + rest)
  }

  // ---------------------------------------------------------------- round trip

  lemma DecodeOneByte(c: char)
    requires (c as int) < 0x80
    ensures DecodeChar(EncodeChar(c)) == Some(c)
  {
  }

  lemma DecodeTwoBytes(c: char)
    requires 0x80 <= (c as int) < 0x800
    ensures DecodeChar(EncodeChar(c)) == Some(c)
  {
    var v := c as int;
    assert (v / 64) * 64 + v % 64 == v;
  }

  lemma DecodeThreeBytes(c: char)
    requires 0x800 <= (c as int) < 0x1_0000
    ensures DecodeChar(EncodeChar(c)) == Some(c)
  {
    var v := c as int;
    var hi, mid, lo := v / 4096, (v / 64) % 64, v % 64;
    assert v / 64 == hi * 64 + mid;
    assert v == hi * 4096 + mid * 64 + lo;
  }

  lemma DecodeFourBytes(c: char)
    requires 0x1_0000 <= (c as int)
    ensures DecodeChar(EncodeChar(c)) == Some(c)
  {
    var v := c as int;
    var top, hi, mid, lo := v / 262144, (v / 4096) % 64, (v / 64) % 64, v % 64;
    assert v / 4096 == top * 64 + hi;
    assert v / 64 == (top * 64 + hi) * 64 + mid;
    assert v == top * 262144 + hi * 4096 + mid * 64 + lo;
  }

  /** Every character's encoding decodes back to it. */
  lemma DecodeEncodeChar(c: char)
    ensures DecodeChar(EncodeChar(c)) == Some(c)
  {
    var v := c as int;
    if v < 0x80 {
      DecodeOneByte(c);
    } else if v < 0x800 {
      DecodeTwoBytes(c);
    } else if v < 0x1_0000 {
      DecodeThreeBytes(c);
    } else {
      DecodeFourBytes(c);
    }
  }

  /** Decoding inverts encoding. */
  lemma {:induction false} DecodeEncode(s: string)
    ensures Decode(Encode(s)) == Some(s)
  {
    if s != [] {
      var e := EncodeChar(s[0]);
      var bs := Encode(s);
      assert bs == e + Encode(s[1..]);
      assert bs[..|e|] == e && bs[|e|..] == Encode(s[1..]);
      DecodeEncodeChar(s[0]);
      DecodeEncode(s[1..]);
      assert [s[0]] + s[1..] == s;
    }
  }

  /** ASCII text encodes to its code points, one byte each. */
  lemma {:induction false} AsciiEncoding(s: string)
    requires forall i :: 0 <= i < |s| ==> (s[i] as int) < 0x80
    ensures |Encode(s)| == |s|
    ensures forall i :: 0 <= i < |s| ==> Encode(s)[i] == s[i] as int
  {
    if s != [] {
      AsciiEncoding(s[1..]);
    }
  }
}

=== FILE: wrappers.dfy ===
/** Failure-carrying result types shared by the whole model. */
module Wrappers {

  datatype Option<+T> = None | Some(value: T) {
    function GetOr(default: T): T {
      match this
      case Some(v) => v
      case None => default
    }
  }

  /** The outcome of an operation that may raise: `Err` carries the exception's message. */
  datatype Result<+T> = Ok(value: T) | Err(error: string) {
    predicate IsFailure() {
      Err?
    }

    function PropagateFailure<U>(): Result<U>
      requires Err?
    {
      Err(error)
    }

    function Extract(): T
      requires Ok?
    {
      value
    }
  }
}
